=== FILE: README.md ===
# Nova voice assistant: native layer

Nova is a voice assistant whose UI talks over method channels to a native layer on each platform. The native layer has three model wrappers:

- speech-to-text (Parakeet, `ParakeetNative`);
- a language model (LFM-2 through llama.cpp, `LFM2Native`);
- text-to-speech (Kokoro, `KokoroNative`).

Each platform also has an entry point that routes channel calls to those wrappers: `MainActivity` on Android and `AppDelegate` on iOS. This project models, in Dafny, the deterministic logic around the inference calls:

- the wrappers' load, unload and "not loaded" state machines;
- the LLM prompt framing, sanitising and parameter clamping;
- the TTS text preparation, token mapping, speaker embedding, sentence chunking and PCM sizing;
- the STT token decoding and PCM unpacking;
- the dispatchers' argument defaults, error routing, `getModelInfo`, `isLoaded` and `unloadAll`.

Each source file is modelled in its own module, and the two platforms are not merged where they differ:

- Kotlin `decodeTokens` emits `<unk>` for an unknown id; Swift skips it.
- The Kotlin LLM `loadModel` returns early when a model is already loaded; the Swift one reloads.
- Kotlin chunks sentences with the regular expression `[.!?]\s*`; Swift splits on a character set. `TtsAndroid.StreamSentencesByCharacterSplit` proves that, on Android, the regular-expression split gives the same sentences as a plain split on the terminator characters, once segments are filtered with Kotlin's `isWhitespace` and trimmed. The platforms still differ: Swift trims only spaces and tabs, so for "a.\nb" Android speaks "b." and iOS speaks "\nb.".
- Kotlin `unloadAll` stops at the first session close that throws; Swift's cannot fail.

Foreign and external behaviour appears only as parameters of the operations that use it:

- ONNX Runtime inference, session creation and session close;
- llama.cpp load, generate, unload and `nativeIsLoaded`;
- file existence.

An arrow-typed parameter stands for an oracle that answers; a `bool` parameter says whether a call throws.

Modules:

- `Wrappers` (Option, Result), `Numeric` (fixed-width integers), `Errors` (exceptions and NSError).
- `Text`: whitespace classes, trim, collapse, lower-case, split, join.
- `Audio`: little-endian 16-bit PCM.
- `Tokens`: end-of-sequence handling.
- `ModelFiles`: asset and file paths.
- `Channel`: call arguments and replies.
- `Dispatch`: how a call becomes a command.
- `LlmPrompt`: the LLM prompt format.
- `Speech`: the TTS text front end.
- One module per source file: `LlmAndroid`, `LlmIos`, `SttAndroid`, `SttIos`, `TtsAndroid`, `TtsIos`, `AppAndroid`, `AppIos`.

## Model

| member | source | states |
|---|---|---|
| Numeric.ToInt32 | android/app/src/main/kotlin/ParakeetNative.kt:135 | `Long.toInt()`: the low 32 bits as a signed value, identity on values that fit |
| Numeric.TruncateTowardZero | android/app/src/main/kotlin/KokoroNative.kt:199 | Float-to-Int conversion truncates toward zero: the result is within 1 of x, on x's side of 0 |
| Audio.SampleRoundTrip | android/app/src/main/kotlin/KokoroNative.kt:199-200 | writing a 16-bit sample as low and high byte and reading it back gives the sample |
| Audio.BytesRoundTrip | android/app/src/main/kotlin/ParakeetNative.kt:106-108 | reading two bytes as a little-endian int16 and writing it back gives the bytes |
| Audio.Samples | android/app/src/main/kotlin/ParakeetNative.kt:106-110 | a buffer holds ⌊bytes/2⌋ samples; a trailing odd byte is ignored |
| Audio.Encode | android/app/src/main/kotlin/KokoroNative.kt:193-201 | the encoded buffer is exactly twice as long as the samples |
| Audio.EncodeAt | android/app/src/main/kotlin/KokoroNative.kt:194-200 | sample i occupies byte 2i (low byte) and byte 2i+1 (high byte) |
| Audio.DecodeEncode | android/app/src/main/kotlin/ParakeetNative.kt:105-116 | decoding an encoded sample sequence gives it back |
| Audio.EncodeDecode | android/app/src/main/kotlin/KokoroNative.kt:192-204 | encoding the samples of an even-length buffer gives the buffer back |
| Audio.Normalize | android/app/src/main/kotlin/ParakeetNative.kt:113 | a sample divided by 32768 lies in [-1, 1) |
| Audio.NormalizedSamples | android/app/src/main/kotlin/ParakeetNative.kt:105-116 | ⌊bytes/2⌋ values, each in [-1, 1) |
| Audio.ClampUnit | android/app/src/main/kotlin/KokoroNative.kt:198 | `coerceIn(-1, 1)`: in range, unchanged inside, the nearer bound outside |
| Audio.ToPcm16 | android/app/src/main/kotlin/KokoroNative.kt:198-199 | the 16-bit value lies in [-32767, 32767] and keeps the sample's sign |
| Audio.Quantized | android/app/src/main/kotlin/KokoroNative.kt:196-201 | one 16-bit value per sample |
| Audio.PcmOf | android/app/src/main/kotlin/KokoroNative.kt:192-204 | the PCM output is 2 × sample count bytes |
| Audio.QuantizationError | android/app/src/main/kotlin/KokoroNative.kt:198-199 | encoding an in-range sample and decoding it with the STT scale is off by less than 2/32768 |
| ModelFiles.SourceOf | android/app/src/main/kotlin/ParakeetNative.kt:42-46 | a path starting with "assets/" names the asset after the prefix, and any other path is a file (both directions) |
| Channel.StringArgument | android/app/src/main/kotlin/MainActivity.kt:32 | a string argument is present exactly when the call carries the key with a string value |
| Channel.IntArgument | android/app/src/main/kotlin/MainActivity.kt:66 | an integer argument is present exactly when the key holds an integer |
| Channel.RealArgument | android/app/src/main/kotlin/MainActivity.kt:83 | a floating-point argument is present exactly when the key holds a double |
| Channel.BytesArgument | android/app/src/main/kotlin/MainActivity.kt:45 | a byte-array argument is present exactly when the key holds bytes |
| Channel.OrElse | android/app/src/main/kotlin/MainActivity.kt:66-67 | `?:`: the argument when present, the default otherwise |
| Dispatch.SttCommand | android/app/src/main/kotlin/MainActivity.kt:29-58 | loadModel and transcribe reach the wrapper exactly when modelPath, respectively audioData, is present; otherwise INVALID_ARGS with "modelPath is required" / "audioData is required"; other names are not implemented |
| Dispatch.LlmCommand | android/app/src/main/kotlin/MainActivity.kt:62-103 | modelPath and prompt are required; contextSize, threads, maxTokens, temperature and topP default to 2048, 4, 256, 0.7 and 0.9 when absent; other names are not implemented |
| Dispatch.TtsCommand | android/app/src/main/kotlin/MainActivity.kt:107-139 | modelPath and text are required; speed defaults to 1.0 and voice to "female"; other names are not implemented |
| Dispatch.ModelCommand | android/app/src/main/kotlin/MainActivity.kt:143-174 | getModelInfo, unloadAll and isLoaded (with its optional modelType) are recognised, all other names are not implemented |
| Dispatch.RequiredArgumentDecides | android/app/src/main/kotlin/MainActivity.kt:69-100 | whether a call is refused, and with which message, depends only on its required argument, never on the optional ones |
| Dispatch.LoadedFlags | android/app/src/main/kotlin/MainActivity.kt:145-152 | getModelInfo answers exactly the keys sttLoaded, llmLoaded and ttsLoaded, each with its wrapper's flag |
| Dispatch.LoadedFor | android/app/src/main/kotlin/MainActivity.kt:163-172 | isLoaded is true only for "stt", "llm" or "tts" and then answers that wrapper's flag; any other or missing type gives false |
| Dispatch.LoadedForAgreesWithFlags | android/app/src/main/kotlin/MainActivity.kt:145-172 | isLoaded on a known type agrees with getModelInfo's entry for that type |
| Text.Trim | android/app/src/main/kotlin/LFM2Native.kt:123 | `trim()`: the result has no whitespace at either end and is the slice of the input between two all-whitespace ends |
| Text.TrimEmptyIffBlank | android/app/src/main/kotlin/KokoroNative.kt:212 | trimming gives "" exactly for a blank string |
| Text.TrimOfTrimmed | android/app/src/main/kotlin/LFM2Native.kt:109 | trimming a trimmed string changes nothing |
| Text.LowerChar | android/app/src/main/kotlin/KokoroNative.kt:131 | a lower-cased character is not upper case, and a character that is not upper case is kept |
| Text.Lower | android/app/src/main/kotlin/KokoroNative.kt:131 | `lowercase()`: same length, character by character, no upper-case letter left |
| Text.Without | android/app/src/main/kotlin/LFM2Native.kt:122 | `replace(c, "")`: no removed character is left, the result is never longer, and a string made only of removed characters becomes "" |
| Text.Collapse | android/app/src/main/kotlin/KokoroNative.kt:130 | `replace(Regex("\\s+"), " ")`: never longer, no two adjacent whitespace characters, every whitespace left is a space, and a non-whitespace first or last character is kept |
| Text.CollapseRun | android/app/src/main/kotlin/KokoroNative.kt:130 | a leading whitespace run of any length becomes exactly one space, followed by the collapsed rest |
| Text.CollapseVisible | android/app/src/main/kotlin/KokoroNative.kt:130 | a leading non-whitespace character is kept, followed by the collapsed rest |
| Text.CollapseConcat | android/app/src/main/kotlin/KokoroNative.kt:130 | collapsing a concatenation collapses each part, unless the cut falls inside a whitespace run |
| Text.CollapseInnerRun | android/app/src/main/kotlin/KokoroNative.kt:130 | a whitespace run between visible text becomes one space: Collapse(x + run + y) = Collapse(x) + " " + Collapse(y) |
| Text.CollapseKeepsVisible | android/app/src/main/kotlin/KokoroNative.kt:130 | collapsing changes only whitespace: the other characters stay, in order |
| Text.CollapseFixpoint | android/app/src/main/kotlin/KokoroNative.kt:130 | text whose whitespace is single spaces is left alone |
| Text.Split | ios/Runner/KokoroNative.swift:140 | `components(separatedBy:)`: one more segment than separators, and no segment contains a separator |
| Text.JoinSplit | ios/Runner/KokoroNative.swift:140 | splitting at a character and joining with it gives the string back |
| Text.SplitJoin | ios/Runner/KokoroNative.swift:140 | joining separator-free words and splitting again gives the words back |
| Text.TrimNotEmpty | ios/Runner/KokoroNative.swift:141-146 | a segment that is not blank under the wider class keeps a character after the narrower trim |
| Text.SentenceTexts | android/app/src/main/kotlin/KokoroNative.kt:211-216 | at most one sentence per segment, each ending with "." |
| Text.SentenceTextsAppend | android/app/src/main/kotlin/KokoroNative.kt:211-216 | the sentences of a concatenation of segment lists are the sentences of each list, in order |
| Text.SentenceTextsSingle | android/app/src/main/kotlin/KokoroNative.kt:211-216 | a blank segment gives no sentence; any other gives exactly its trimmed text + "." |
| Tokens.UntilEos | android/app/src/main/kotlin/ParakeetNative.kt:133-134 | the ids read are a prefix with no 0, followed by a 0 or the end |
| Tokens.UntilEosAt | android/app/src/main/kotlin/ParakeetNative.kt:133-134 | that prefix ends exactly at the first 0 |
| Tokens.UntilEosIgnoresTail | android/app/src/main/kotlin/ParakeetNative.kt:133-134 | nothing after an id 0 is read |
| LlmPrompt.HistoryAppend | android/app/src/main/kotlin/LFM2Native.kt:143-151 | the history text of a concatenation is the concatenation of the history texts, so pairs appear in list order |
| LlmPrompt.FramedShape | android/app/src/main/kotlin/LFM2Native.kt:137-159 | the prompt begins with the system block and ends with the user block and "<\|assistant\|>"; with no history it is exactly those |
| LlmPrompt.HistorySplitAt | android/app/src/main/kotlin/LFM2Native.kt:143-151 | the history text splits around any turn into the turns before it, its block, and the turns after it |
| LlmPrompt.TurnAt | android/app/src/main/kotlin/LFM2Native.kt:143-151 | history pair i appears in full as its user and assistant blocks, right after the system block and pairs 0..i-1 |
| LlmPrompt.Sanitize | android/app/src/main/kotlin/LFM2Native.kt:119-124 | the sanitised prompt contains no U+0000 and has no whitespace at either end |
| LlmPrompt.SanitizeSlice | android/app/src/main/kotlin/LFM2Native.kt:119-124 | nothing else is removed: the sanitised prompt is the NUL-free prompt with exactly its whitespace ends cut off (a slice between a blank prefix and a blank suffix) |
| LlmPrompt.SanitizeIdempotent | android/app/src/main/kotlin/LFM2Native.kt:119-124 | sanitising a sanitised prompt changes nothing |
| LlmPrompt.CoerceIn | android/app/src/main/kotlin/LFM2Native.kt:97 | `coerceIn`: the result lies in the bounds, an in-range value is unchanged, a value below the range gives the lower bound and one above gives the upper bound |
| LlmPrompt.CoerceInReal | android/app/src/main/kotlin/LFM2Native.kt:98-99 | the same for Float: in the bounds, in-range unchanged, below gives lo, above gives hi |
| LlmPrompt.MinMax | ios/Runner/LFM2Native.swift:45 | `min(max(x, lo), hi)`: never above hi, at least lo when lo ≤ hi, in-range unchanged, below gives lo, above gives hi |
| LlmPrompt.MinMaxReal | ios/Runner/LFM2Native.swift:46-47 | the same for Float |
| LlmPrompt.ClampsAgree | ios/Runner/LFM2Native.swift:45-47 | Swift's `min(max(x, lo), hi)` equals Kotlin's `coerceIn(lo, hi)` whenever lo ≤ hi |
| LlmAndroid.GenerationRequest | android/app/src/main/kotlin/LFM2Native.kt:94-99 | native generation receives the sanitised prompt, with maxTokens in [1,1024], temperature in [0,2] and topP in [0,1]; in-range values pass unchanged and an out-of-range maxTokens, temperature or topP goes to the nearer bound |
| LlmAndroid.LFM2Native.constructor | android/app/src/main/kotlin/LFM2Native.kt:12-15 | unloaded, no path, context size 2048, 4 threads |
| LlmAndroid.LFM2Native.LoadModel | android/app/src/main/kotlin/LFM2Native.kt:48-79 | already loaded: true, nothing changes; missing file: false, nothing changes; otherwise path, context size and threads are recorded and the wrapper is loaded exactly when the native load answers true; a native exception answers false; an Error from the native call (the UnsatisfiedLinkError left by a library that failed to load in the companion `init`, lines 35-44) propagates with the settings already recorded |
| LlmAndroid.LFM2Native.Generate | android/app/src/main/kotlin/LFM2Native.kt:84-114 | unloaded: exactly then IllegalStateException("Model not loaded"); a native failure becomes RuntimeException("Text generation failed: " + message); a success is exactly the native response trimmed of whitespace, and comes only from a successful native call |
| LlmAndroid.LFM2Native.BuildPrompt | android/app/src/main/kotlin/LFM2Native.kt:130-162 | the StringBuilder loop produces the framed prompt (system block, history in order, user block, open assistant marker) |
| LlmAndroid.LFM2Native.Unload | android/app/src/main/kotlin/LFM2Native.kt:167-177 | loaded and the native unload succeeds: flag and path cleared, settings kept; unloaded, or the native unload throws: nothing changes |
| LlmAndroid.LFM2Native.IsLoaded | android/app/src/main/kotlin/LFM2Native.kt:182-184 | false when the wrapper's flag is clear; otherwise exactly what the native side reports |
| LlmAndroid.LFM2Native.GetModelInfo | android/app/src/main/kotlin/LFM2Native.kt:189-196 | reports the flag, the path ("" when none), the context size and the threads |
| LlmAndroid.LoadTwice | android/app/src/main/kotlin/LFM2Native.kt:53-55 | a second load of a loaded wrapper answers true and keeps the first load's path and settings |
| LlmIos.GenerationRequest | ios/Runner/LFM2Native.swift:44-47 | the sanitised prompt with maxTokens in [1,1024], temperature in [0,2], topP in [0,1]; in-range values unchanged, out-of-range ones at the nearer bound |
| LlmIos.LFM2Native.constructor | ios/Runner/LFM2Native.swift:5-8 | unloaded, no path, context size 2048, 4 threads |
| LlmIos.LFM2Native.LoadModel | ios/Runner/LFM2Native.swift:13-36 | missing file: false, nothing changes; otherwise true, loaded, and path, context size and threads overwritten even when already loaded |
| LlmIos.LFM2Native.Generate | ios/Runner/LFM2Native.swift:38-63 | unloaded exactly when it throws, and the error is NSError("LFM2Native", 1, "Model not loaded"); loaded: "AI response placeholder" for every input |
| LlmIos.LFM2Native.BuildPrompt | ios/Runner/LFM2Native.swift:72-100 | the `+=` loop produces the same framed prompt |
| LlmIos.LFM2Native.Unload | ios/Runner/LFM2Native.swift:102-111 | acts only when loaded; afterwards not loaded, and when it acted the path is cleared and getModelInfo reports "" |
| LlmIos.LFM2Native.GetModelInfo | ios/Runner/LFM2Native.swift:117-124 | reports the flag, the path ("" when none), the context size and the threads |
| LlmIos.Reload | ios/Runner/LFM2Native.swift:19-21 | a second load of an existing file replaces the first load's path and settings |
| SttAndroid.KeptWords | android/app/src/main/kotlin/ParakeetNative.kt:133-139 | at most one word per id, never "<pad>", each "<unk>" or a vocabulary word |
| SttAndroid.DecodedText | android/app/src/main/kotlin/ParakeetNative.kt:141 | the transcript has no whitespace at either end |
| SttAndroid.DecodeTokens | android/app/src/main/kotlin/ParakeetNative.kt:122-142 | the loop with `break` computes the words before the first 0, unknown ids as "<unk>", pads dropped, joined by spaces and trimmed |
| SttAndroid.DecodeStopsAtEos | android/app/src/main/kotlin/ParakeetNative.kt:134 | ids after the first 0 do not affect the transcript |
| SttAndroid.DecodeNothing | android/app/src/main/kotlin/ParakeetNative.kt:131-141 | empty input, or input starting with 0, gives "" |
| SttAndroid.OneWordPerId | android/app/src/main/kotlin/ParakeetNative.kt:135-138 | with no "<pad>" in the vocabulary, every id before the first 0 gives exactly one word |
| SttAndroid.EmptyVocabularyWords | android/app/src/main/kotlin/ParakeetNative.kt:135 | with an empty vocabulary every id gives "<unk>" |
| SttAndroid.ShippedTranscript | android/app/src/main/kotlin/ParakeetNative.kt:148-152 | with the shipped empty vocabulary, the transcript is "<unk>" once per id before the first 0, joined by spaces |
| SttAndroid.PcmBytesToFloatArray | android/app/src/main/kotlin/ParakeetNative.kt:105-116 | the indexed loop fills ⌊bytes/2⌋ little-endian int16 samples divided by 32768 |
| SttAndroid.Transcription | android/app/src/main/kotlin/ParakeetNative.kt:63-100 | not ready: exactly then IllegalStateException("Model not loaded"); inference failure becomes "Transcription failed: " + message; success is the decoded, trimmed transcript; never an Error |
| SttAndroid.ParakeetNative.constructor | android/app/src/main/kotlin/ParakeetNative.kt:15-16 | no session, not loaded |
| SttAndroid.ParakeetNative.LoadModel | android/app/src/main/kotlin/ParakeetNative.kt:31-57 | true when reading the asset or the file and opening the session throw nothing, and then it is loaded with a session; an exception gives false; an Error (the OutOfMemoryError of `readBytes()` on a model larger than the heap) is not caught and propagates; a failure changes nothing |
| SttAndroid.ParakeetNative.Transcribe | android/app/src/main/kotlin/ParakeetNative.kt:63-100 | the answer is the transcription for the wrapper's readiness (loaded and holding a session) |
| SttAndroid.ParakeetNative.Unload | android/app/src/main/kotlin/ParakeetNative.kt:157-161 | throws exactly when a session is open and closing it throws, and then nothing changes; otherwise afterwards no session and not loaded |
| SttIos.KeptWords | ios/Runner/ParakeetNative.swift:84-90 | at most one word per id, each a vocabulary word other than "<pad>" (unknown ids are skipped) |
| SttIos.DecodedText | ios/Runner/ParakeetNative.swift:92 | the transcript has no space or tab at either end |
| SttIos.DecodeTokens | ios/Runner/ParakeetNative.swift:77-93 | the loop with `break` computes the decoded text |
| SttIos.DecodeStopsAtEos | ios/Runner/ParakeetNative.swift:85 | ids after the first 0 do not affect the transcript |
| SttIos.ShippedTranscript | ios/Runner/ParakeetNative.swift:95-98 | with the shipped empty vocabulary every transcript is "" |
| SttIos.PcmDataToFloatArray | ios/Runner/ParakeetNative.swift:62-75 | data.count/2 values, each an int16 divided by 32768 |
| SttIos.Transcription | ios/Runner/ParakeetNative.swift:36-60 | unloaded exactly when it fails, with NSError("ParakeetNative", 1, "Model not loaded"); loaded: "Transcription placeholder" for any audio |
| SttIos.ParakeetNative.constructor | ios/Runner/ParakeetNative.swift:6-7 | not loaded, no path |
| SttIos.ParakeetNative.LoadModel | ios/Runner/ParakeetNative.swift:15-34 | false and nothing changes when the file is missing; otherwise the path is recorded and it is loaded |
| SttIos.ParakeetNative.Transcribe | ios/Runner/ParakeetNative.swift:36-60 | the answer is the transcription for the loaded flag |
| SttIos.ParakeetNative.Unload | ios/Runner/ParakeetNative.swift:100-104 | unconditional: not loaded and no path |
| Speech.Prepare | android/app/src/main/kotlin/KokoroNative.kt:127-132 | prepared text is no longer than the input, trimmed, has no two adjacent whitespace characters, has only spaces as whitespace, and has no upper-case letter |
| Speech.PrepareKeepsVisible | android/app/src/main/kotlin/KokoroNative.kt:127-132 | apart from whitespace, the prepared text is the trimmed text lower-cased |
| Speech.PrepareInnerRun | android/app/src/main/kotlin/KokoroNative.kt:127-132 | between two trimmed pieces, a whitespace run of any length becomes exactly one space: Prepare(x + run + y) = Prepare(x) + " " + Prepare(y) |
| Speech.PrepareIdempotent | android/app/src/main/kotlin/KokoroNative.kt:127-132 | preparing prepared text changes nothing |
| Speech.TokenIds | android/app/src/main/kotlin/KokoroNative.kt:141-149 | one id per character: the vocabulary entry, or 0 for a character the vocabulary lacks |
| Speech.EmptyVocabularyTokens | android/app/src/main/kotlin/KokoroNative.kt:155-158 | with the shipped empty vocabulary every id is 0 |
| Speech.Zeros | android/app/src/main/kotlin/KokoroNative.kt:182 | n samples, all 0 |
| Speech.ZeroBytes | ios/Runner/KokoroNative.swift:62-63 | n bytes, all 0 |
| Speech.SilencePcm | ios/Runner/KokoroNative.swift:60-63 | n silent samples encode to 2n zero bytes |
| TtsAndroid.PrepareText | android/app/src/main/kotlin/KokoroNative.kt:127-132 | trimmed by Char.isWhitespace; only spaces remain of regex-\s, never two in a row; lower case (one space per run is Speech.PrepareInnerRun) |
| TtsAndroid.TextToTokens | android/app/src/main/kotlin/KokoroNative.kt:138-150 | the list-building loop computes one id per character, 0 when unknown |
| TtsAndroid.SpeakerEmbedding | android/app/src/main/kotlin/KokoroNative.kt:163-170 | 256 values: all 0.5 for "male", all 0.0 for any other voice |
| TtsAndroid.MelToWaveform | android/app/src/main/kotlin/KokoroNative.kt:176-187 | all-zero audio; none for no frames; numFrames × 256 samples at speed 1; ⌊numFrames·256/speed⌋ for a positive speed; an allocation failure exactly for speed 0 with frames; a negative size exactly when a negative speed gives a quotient ≤ -1 |
| TtsAndroid.FloatArrayToPcm | android/app/src/main/kotlin/KokoroNative.kt:192-204 | the loop writes each clamped, scaled, truncated sample little-endian into a buffer of 2 × sample count bytes |
| TtsAndroid.SynthesisOutcome | android/app/src/main/kotlin/KokoroNative.kt:63-122 | not ready: exactly then IllegalStateException("Model not loaded"); inference failure becomes "Speech synthesis failed: " + message; success is all-zero even-length PCM, numFrames × 512 bytes at speed 1; a positive speed always succeeds; OutOfMemoryError exactly for speed 0 with frames |
| TtsAndroid.SplitSentences | android/app/src/main/kotlin/KokoroNative.kt:211 | split on `[.!?]\s*`: the first segment is a prefix of the text, no segment contains a terminator, and no later segment starts with whitespace |
| TtsAndroid.StreamSentences | android/app/src/main/kotlin/KokoroNative.kt:211-215 | every sentence synthesised ends with "." |
| TtsAndroid.StreamSentencesStep | android/app/src/main/kotlin/KokoroNative.kt:209-217 | the first sentence is the text before the first terminator, trimmed, + "." (none when that text is blank), followed by the sentences of the rest |
| TtsAndroid.StreamSentencesLast | android/app/src/main/kotlin/KokoroNative.kt:209-217 | text without a terminator gives its trimmed text + ".", or nothing when blank |
| TtsAndroid.SplitsAlign | android/app/src/main/kotlin/KokoroNative.kt:211 | segment by segment, the regex split is the character split with the whitespace after each terminator removed |
| TtsAndroid.BlankPrefixSameSentence | android/app/src/main/kotlin/KokoroNative.kt:212-215 | removing leading whitespace changes neither blankness nor the trimmed sentence |
| TtsAndroid.SentenceTextsAlign | android/app/src/main/kotlin/KokoroNative.kt:212-215 | segment lists equal up to leading whitespace give the same sentences |
| TtsAndroid.StreamSentencesByCharacterSplit | android/app/src/main/kotlin/KokoroNative.kt:209-217 | the sentences synthesised are the non-blank segments of a plain split at '.', '!' and '?', trimmed, each + "." |
| TtsAndroid.StreamOutcome | android/app/src/main/kotlin/KokoroNative.kt:214-216 | a successful stream has one chunk per sentence, in order, each that sentence's synthesis; no sentences give no chunks |
| TtsAndroid.StreamStep | android/app/src/main/kotlin/KokoroNative.kt:214-216 | each sentence either ends the stream with its error or adds its chunk after the chunks so far |
| TtsAndroid.StreamStopsAtFirstFailure | android/app/src/main/kotlin/KokoroNative.kt:214-216 | the stream throws the error of its first failing sentence |
| TtsAndroid.StreamUnloaded | android/app/src/main/kotlin/KokoroNative.kt:68-70 | without a session the stream throws "Model not loaded" when there is a sentence, and is empty otherwise |
| TtsAndroid.KokoroNative.constructor | android/app/src/main/kotlin/KokoroNative.kt:15-16 | no session, not loaded |
| TtsAndroid.KokoroNative.LoadModel | android/app/src/main/kotlin/KokoroNative.kt:31-57 | true when reading the model and opening the session throw nothing, and then it is loaded with a session; an exception gives false; an Error (the OutOfMemoryError of `readBytes()`) is not caught and propagates; a failure changes nothing |
| TtsAndroid.KokoroNative.Synthesize | android/app/src/main/kotlin/KokoroNative.kt:63-122 | prepare, tokens, embedding, inference, waveform and PCM compute the synthesis for the wrapper's readiness |
| TtsAndroid.KokoroNative.SynthesizeStream | android/app/src/main/kotlin/KokoroNative.kt:209-217 | the chunks are the stream outcome of the chunked sentences, each synthesised at speed 1.0 with voice "female" |
| TtsAndroid.KokoroNative.Unload | android/app/src/main/kotlin/KokoroNative.kt:222-226 | throws exactly when a session is open and closing it throws, and then nothing changes; otherwise afterwards no session and not loaded |
| TtsAndroid.KokoroNative.GetModelInfo | android/app/src/main/kotlin/KokoroNative.kt:236-242 | reports the loaded flag, sampleRate 16000 and hopLength 256 |
| TtsIos.PrepareText | ios/Runner/KokoroNative.swift:68-73 | trimmed of whitespace and newlines; only spaces remain of ICU-\s, never two in a row; lower case (one space per run is Speech.PrepareInnerRun) |
| TtsIos.TextToTokens | ios/Runner/KokoroNative.swift:75-86 | the append loop computes one id per character, 0 when unknown |
| TtsIos.SpeakerEmbedding | ios/Runner/KokoroNative.swift:93-101 | 256 values: 0.5 for "male", otherwise 0.0 |
| TtsIos.MelToWaveform | ios/Runner/KokoroNative.swift:112-120 | all zeros; length ⌊numFrames·256/speed⌋ for a non-negative quotient; empty for a quotient in (−1, 0), so for any negative speed it accepts; numFrames × 256 at speed 1 |
| TtsIos.FloatArrayToPcm | ios/Runner/KokoroNative.swift:122-136 | the indexed loop writes each clamped, scaled, truncated sample little-endian into 2 × count bytes |
| TtsIos.Synthesis | ios/Runner/KokoroNative.swift:36-66 | unloaded exactly when it fails, with NSError("KokoroNative", 1, "Model not loaded"); loaded: 64000 zero bytes (32000 silent samples) whatever the text, speed or voice |
| TtsIos.StreamSentences | ios/Runner/KokoroNative.swift:140-146 | at most one sentence per segment of the split at '.', '!', '?', each ending with "." |
| TtsIos.StreamSentencesStep | ios/Runner/KokoroNative.swift:140-146 | the first sentence is the text before the first terminator trimmed of spaces and tabs, + "." (none when it is blank, newlines included), followed by the sentences of the rest |
| TtsIos.StreamSentencesLast | ios/Runner/KokoroNative.swift:140-146 | text without a terminator gives its trimmed text + ".", or nothing when blank |
| TtsIos.KokoroNative.constructor | ios/Runner/KokoroNative.swift:6-7 | not loaded, no path |
| TtsIos.KokoroNative.LoadModel | ios/Runner/KokoroNative.swift:15-34 | false and nothing changes when the file is missing; otherwise the path is recorded and it is loaded |
| TtsIos.KokoroNative.Synthesize | ios/Runner/KokoroNative.swift:36-66 | the answer is the synthesis for the loaded flag |
| TtsIos.KokoroNative.SynthesizeStream | ios/Runner/KokoroNative.swift:138-154 | loaded: one silence chunk per kept sentence, in order; unloaded: every sentence fails and is skipped, so no chunks; never more chunks than segments |
| TtsIos.KokoroNative.Unload | ios/Runner/KokoroNative.swift:156-161 | unconditional: not loaded and no path |
| TtsIos.KokoroNative.GetModelInfo | ios/Runner/KokoroNative.swift:167-173 | reports the loaded flag, sampleRate 16000 and hopLength 256 |
| AppAndroid.Caught | android/app/src/main/kotlin/MainActivity.kt:128-133 | `catch (e: Exception)`: a value is replied, an exception becomes the error code with its message, and only an Error escapes the handler |
| AppAndroid.TranscribeAlwaysReplies | android/app/src/main/kotlin/MainActivity.kt:47-52 | transcribe always replies, and an unloaded wrapper gives TRANSCRIBE_ERROR "Model not loaded" |
| AppAndroid.MainActivity.ConfigureFlutterEngine | android/app/src/main/kotlin/MainActivity.kt:20-26 | three new wrappers, none loaded |
| AppAndroid.MainActivity.HandleStt | android/app/src/main/kotlin/MainActivity.kt:29-59 | invalid or unknown calls leave the wrapper untouched; loadModel replies the wrapper's flag, or propagates the Error the wrapper lets through; transcribe replies the transcription or TRANSCRIBE_ERROR with its message |
| AppAndroid.MainActivity.HandleLlm | android/app/src/main/kotlin/MainActivity.kt:62-104 | invalid or unknown calls leave the wrapper untouched; loadModel passes the defaulted context size and threads and replies the load's answer, while an Error from the native load escapes the handler; generate replies the response or GENERATE_ERROR |
| AppAndroid.MainActivity.HandleTts | android/app/src/main/kotlin/MainActivity.kt:107-140 | invalid or unknown calls leave the wrapper untouched; loadModel replies the wrapper's flag, or propagates the Error the wrapper lets through; synthesize replies the PCM or SYNTHESIZE_ERROR; the OutOfMemoryError of a zero speed escapes |
| AppAndroid.MainActivity.UnloadWrappers | android/app/src/main/kotlin/MainActivity.kt:155-157 | stt, then llm, then tts; a stt close that throws skips llm and tts; a tts close that throws leaves tts loaded |
| AppAndroid.MainActivity.HandleModel | android/app/src/main/kotlin/MainActivity.kt:143-175 | getModelInfo and isLoaded report the wrappers' flags and change nothing; unloadAll replies null after all three unloads, or UNLOAD_ERROR with the first thrown message, having skipped the rest; the LLM is unloaded with its path cleared, or left unchanged when it was not loaded or its native unload throws |
| AppAndroid.MainActivity.OnDestroy | android/app/src/main/kotlin/MainActivity.kt:178-184 | unloads all three in order; an stt close that throws propagates with nothing changed; otherwise stt is unloaded, llm unloaded unless its unload throws, and a tts close that throws propagates with tts unchanged |
| AppIos.CaughtNS | ios/Runner/AppDelegate.swift:145-147 | `catch`: a value is replied, and an error becomes the error code with its localized description |
| AppIos.AppDelegate.constructor | ios/Runner/AppDelegate.swift:7-9 | no wrapper exists before launch |
| AppIos.AppDelegate.DidFinishLaunching | ios/Runner/AppDelegate.swift:19-21 | three new wrappers, none loaded |
| AppIos.AppDelegate.HandleStt | ios/Runner/AppDelegate.swift:29-58 | INVALID_ARGS or not implemented without touching the wrapper; loadModel false and transcribe "" when the wrapper is absent; otherwise the wrapper's answer or TRANSCRIBE_ERROR |
| AppIos.AppDelegate.HandleLlm | ios/Runner/AppDelegate.swift:66-111 | defaults 2048/4 and 256/0.7/0.9; an absent wrapper gives false or ""; a present wrapper records the load or replies the response or GENERATE_ERROR |
| AppIos.AppDelegate.HandleTts | ios/Runner/AppDelegate.swift:119-155 | defaults 1.0/"female"; an absent wrapper gives false or empty data; otherwise the silence PCM or SYNTHESIZE_ERROR |
| AppIos.AppDelegate.UnloadWrappers | ios/Runner/AppDelegate.swift:176-178 | every present wrapper unloaded, in order, none can fail; the stt and tts paths are cleared; a loaded LLM has its path cleared and keeps its context size and threads; an LLM that was not loaded is unchanged |
| AppIos.AppDelegate.HandleModel | ios/Runner/AppDelegate.swift:163-203 | getModelInfo and isLoaded report each wrapper's flag, false when it is absent or the type is unknown or missing; unloadAll always replies null and leaves the post-state of UnloadWrappers: nothing loaded, stt and tts paths cleared, a loaded LLM's path cleared with its settings kept, an unloaded LLM unchanged |
| AppIos.AppDelegate.ApplicationWillTerminate | ios/Runner/AppDelegate.swift:209-215 | the post-state of UnloadWrappers: no wrapper loaded, stt and tts paths cleared, a loaded LLM's path cleared with its settings kept, an unloaded LLM unchanged |

## Left out

- Inference, session creation, session close, llama.cpp calls and file existence are parameters, not models. The tensors and the ORT environment are not represented. Kotlin's `outputs[0].value` cast is folded into the inference parameter's failure.
- The mel spectrogram is represented only by its frame count. Swift's `runInference` and the commented-out native code are not part of this model.
- Floating point is modelled as exact reals:
  - `/ 32768` is exact for int16.
  - `* 32767` is followed by exact truncation, so the rounding of single-precision products is left out.
  - NaN and infinity inputs are not represented.
  - The `Double`-to-`Float` conversion of temperature, topP and speed is the identity.
- TtsAndroid.MelToWaveform: the Int overflow of `numFrames * 256` is not modelled. The saturation of very large quotients to Int.MAX_VALUE, and the memory limit for large positive lengths, are not modelled either.
- TtsAndroid.Synthesis: the runtime's message for a negative array size is a parameter.
- TtsIos.MelToWaveform: its precondition excludes the inputs on which Swift traps: a zero speed (infinity, or NaN for 0/0) and a quotient of -1 or less (a negative count). The trap of `Int(Float)` on a quotient above Int.max (a tiny positive speed) is not modelled: the model answers that many zeros. Float rounding of the quotient is not modelled either. The function is not called by the Swift synthesize, which answers fixed silence.
- Audio.QuantizationError: the source converts samples with a truncating `toInt()`, so the error bound is two quantisation steps (2/32768), where rounding to nearest would give one; the model follows the code.
- SttIos.DecodeTokens is modelled, but the Swift transcribe does not call it. The decoder and its vocabulary are called with the vocabulary as a parameter; the shipped empty vocabularies are the `LoadVocabulary` functions.
- Text is ASCII, with explicit whitespace classes per platform:
  - Kotlin `isWhitespace`;
  - Java regex `\s`;
  - Foundation `.whitespaces` and `.whitespacesAndNewlines`;
  - ICU `\s`.

  Unicode whitespace, grapheme clusters and locale-aware lower-casing are out of scope.
- Bytes are modelled unsigned, 0 to 255. Kotlin's signed `Byte` values are the same bit patterns.
- Swift writes PCM in host byte order, which is little-endian on every iOS device. The model writes little-endian.
- Swift's `bindMemory` alignment assumptions are not modelled.
- A Kotlin exception whose message is null is rendered as "null" in the source; messages here are always strings.
- Channel arguments:
  - An argument of the wrong type is treated as absent. Kotlin's unchecked `call.argument<T>` would instead throw a ClassCastException where the value is used.
  - A non-map `arguments` is not represented.
  - Numeric coercion between Dart int and double is not modelled.
- Kotlin's handlers catch exceptions from `loadModel`, but every wrapper `loadModel` catches its own exceptions, so the LOAD_ERROR reply cannot arise and has no branch here. An Error gets past both catches: the UnsatisfiedLinkError of the LLM's native load, or the OutOfMemoryError of `readBytes()` in the STT and TTS loads when the model file is larger than the heap (or than Int.MAX_VALUE bytes). HandleLlm, HandleStt and HandleTts propagate it.
- Kotlin's `lateinit` fields accessed before `configureFlutterEngine` are not modelled; the activity is constructed configured. Swift's `[weak self]` release is not modelled either.
- Kotlin's ONNX wrappers replace the session without closing the previous one when loading twice. That resource leak is not observable in the model.
- SttAndroid.Transcription covers the `ortSession == null` refusal through the session flag. The invariant that the flag and the session go together makes that case coincide with "not loaded".
- Logging (`print`, `printStackTrace`), channel registration, the binary messenger and `FlutterStandardTypedData` marshalling are platform plumbing and are left out.
- No locking: calls are modelled one at a time, as the channels deliver them on the main thread.

=== FILE: AppAndroid.dfy ===
/**
 * The Android entry point (MainActivity.kt): it creates the three wrappers
 * when the engine is configured and answers the four method channels. Every
 * wrapper call sits in a `try { … } catch (e: Exception)`, so an exception
 * becomes an error reply carrying its message, while an Error escapes the
 * handler.
 */
module AppAndroid {
  import opened Wrappers
  import opened Numeric
  import opened Errors
  import opened Channel
  import opened Dispatch
  import opened ModelFiles
  import LlmPrompt
  import SttAndroid
  import LlmAndroid
  import TtsAndroid

  /**
   * A wrapper call inside `try { … } catch (e: Exception)`. The value is
   * replied; an exception becomes the error reply `code` with the exception's
   * message; an Error is not caught and escapes the handler (Failure).
   */
  function Caught(code: string, outcome: Result<Value, KotlinThrowable>): (r: Result<Reply, KotlinThrowable>)
    ensures r.Failure? <==> outcome.Failure? && outcome.error.IsError()
    ensures r.Failure? ==> r == Failure(outcome.error)
    ensures outcome.Success? ==> r == Success(Replied(outcome.value))
    ensures outcome.Failure? && !outcome.error.IsError() ==>
              r == Success(ErrorReply(code, outcome.error.message))
  {
    match outcome
    case Success(v) => Success(Replied(v))
    case Failure(e) => if e.IsError() then Failure(e) else Success(ErrorReply(code, e.message))
  }

  function AsString(outcome: Result<string, KotlinThrowable>): Result<Value, KotlinThrowable> {
    match outcome
    case Success(s) => Success(StringValue(s))
    case Failure(e) => Failure(e)
  }

  function AsBytes(outcome: Result<seq<byte>, KotlinThrowable>): Result<Value, KotlinThrowable> {
    match outcome
    case Success(b) => Success(BytesValue(b))
    case Failure(e) => Failure(e)
  }

  /** A transcription never reaches the platform as an escaped Error. */
  lemma TranscribeAlwaysReplies(ready: bool, audioData: seq<byte>, run: seq<real> -> Result<seq<int64>, string>)
    ensures Caught(TranscribeError, AsString(SttAndroid.Transcription(ready, audioData, run))).Success?
    ensures !ready ==>
              Caught(TranscribeError, AsString(SttAndroid.Transcription(ready, audioData, run)))
              == Success(ErrorReply(TranscribeError, ModelNotLoaded))
  {
  }

  class MainActivity {
    var stt: SttAndroid.ParakeetNative
    var llm: LlmAndroid.LFM2Native
    var tts: TtsAndroid.KokoroNative

    predicate Valid()
      reads this, stt, llm, tts
    {
      stt.Valid() && llm.Valid() && tts.Valid()
    }

    /** configureFlutterEngine: three new wrappers, none of them loaded. */
    constructor ConfigureFlutterEngine()
      ensures Valid() && fresh(stt) && fresh(llm) && fresh(tts)
      ensures !stt.IsLoaded() && !llm.isModelLoaded && !tts.IsLoaded()
    {
      stt := new SttAndroid.ParakeetNative();
      llm := new LlmAndroid.LFM2Native();
      tts := new TtsAndroid.KokoroNative();
    }

    /**
     * nova/stt. Only a valid loadModel or transcribe reaches the wrapper;
     * loadModel answers the wrapper's flag (the wrapper catches its own
     * exceptions, so LOAD_ERROR never arises, and an Error escapes both
     * catches); transcribe answers the transcript
     * or TRANSCRIBE_ERROR with the exception's message.
     */
    method HandleStt(call: MethodCall, openSession: ModelSource -> Option<KotlinThrowable>,
                     run: seq<real> -> Result<seq<int64>, string>)
      returns (r: Result<Reply, KotlinThrowable>)
      requires Valid()
      modifies stt
      ensures Valid()
      ensures SttCommand(call).Invalid? ==> r == Success(ErrorReply(InvalidArgs, SttCommand(call).message)) && unchanged(stt)
      ensures SttCommand(call).Unknown? ==> r == Success(NotImplemented) && unchanged(stt)
      ensures SttCommand(call).LoadStt? ==>
                var thrown := openSession(SourceOf(SttCommand(call).modelPath));
                && (thrown == None ==> r == Success(Replied(BoolValue(true))) && stt.IsLoaded())
                && (thrown.Some? ==> unchanged(stt))
                && (thrown.Some? && !thrown.value.IsError() ==> r == Success(Replied(BoolValue(false))))
                && (thrown.Some? && thrown.value.IsError() ==> r == Failure(thrown.value))
      ensures SttCommand(call).Transcribe? ==>
                r == Caught(TranscribeError, AsString(SttAndroid.Transcription(
                       old(stt.isModelLoaded && stt.hasSession), SttCommand(call).audioData, run)))
                && unchanged(stt)
    {
      match SttCommand(call) {
        case LoadStt(modelPath) =>
          var loaded := stt.LoadModel(modelPath, openSession);
          match loaded {
            case Success(success) => r := Success(Replied(BoolValue(success)));
            case Failure(e) => r := Failure(e);
          }
        case Transcribe(audioData) =>
          var transcript := stt.Transcribe(audioData, run);
          r := Caught(TranscribeError, AsString(transcript));
        case Invalid(message) =>
          r := Success(ErrorReply(InvalidArgs, message));
        case _ =>
          r := Success(NotImplemented);
      }
    }

    /**
     * nova/llm. loadModel hands the wrapper the path with the context size and
     * threads (defaults 2048 and 4) and answers its flag; generate hands it the
     * prompt with maxTokens, temperature and topP (defaults 256, 0.7, 0.9) and
     * answers the response or GENERATE_ERROR with the exception's message.
     */
    method HandleLlm(call: MethodCall, fileExists: string -> bool,
                     nativeLoad: (string, int, int) -> Result<bool, KotlinThrowable>,
                     nativeGenerate: LlmPrompt.Request -> Result<string, string>)
      returns (r: Result<Reply, KotlinThrowable>)
      requires Valid()
      modifies llm
      ensures Valid()
      ensures LlmCommand(call).Invalid? ==> r == Success(ErrorReply(InvalidArgs, LlmCommand(call).message)) && unchanged(llm)
      ensures LlmCommand(call).Unknown? ==> r == Success(NotImplemented) && unchanged(llm)
      ensures LlmCommand(call).LoadLlm? && old(llm.isModelLoaded) ==>
                r == Success(Replied(BoolValue(true))) && unchanged(llm)
      ensures LlmCommand(call).LoadLlm? && !old(llm.isModelLoaded) && !fileExists(LlmCommand(call).modelPath) ==>
                r == Success(Replied(BoolValue(false))) && unchanged(llm)
      ensures LlmCommand(call).LoadLlm? && !old(llm.isModelLoaded) && fileExists(LlmCommand(call).modelPath) ==>
                var c := LlmCommand(call);
                var outcome := nativeLoad(c.modelPath, c.contextSize, c.threads);
                && llm.GetModelInfo() == LlmPrompt.Info(outcome == Success(true), c.modelPath, c.contextSize, c.threads)
                && (outcome.Success? ==> r == Success(Replied(BoolValue(outcome.value))))
                && (outcome.Failure? && !outcome.error.IsError() ==> r == Success(Replied(BoolValue(false))))
                && (outcome.Failure? && outcome.error.IsError() ==> r == Failure(outcome.error))
      ensures LlmCommand(call).Generate? ==>
                var c := LlmCommand(call);
                r == Caught(GenerateError, AsString(llm.Generate(c.prompt, c.maxTokens, c.temperature, c.topP, nativeGenerate)))
                && unchanged(llm)
    {
      match LlmCommand(call) {
        case LoadLlm(modelPath, contextSize, threads) =>
          var loaded := llm.LoadModel(modelPath, contextSize, threads, fileExists, nativeLoad);
          match loaded {
            case Success(success) => r := Success(Replied(BoolValue(success)));
            case Failure(e) => r := Failure(e);
          }
        case Generate(prompt, maxTokens, temperature, topP) =>
          var response := llm.Generate(prompt, maxTokens, temperature, topP, nativeGenerate);
          r := Caught(GenerateError, AsString(response));
        case Invalid(message) =>
          r := Success(ErrorReply(InvalidArgs, message));
        case _ =>
          r := Success(NotImplemented);
      }
    }

    /**
     * nova/tts. loadModel answers the wrapper's flag, or lets an Error from it
     * escape; synthesize hands it the
     * text, speed (default 1.0) and voice (default "female") and answers the
     * PCM bytes or SYNTHESIZE_ERROR with the exception's message. An
     * OutOfMemoryError from a zero speed is not an Exception and escapes.
     */
    method HandleTts(call: MethodCall, openSession: ModelSource -> Option<KotlinThrowable>,
                     infer: ((seq<int64>, seq<real>)) -> Result<nat, string>,
                     negativeSizeMessage: int -> string)
      returns (r: Result<Reply, KotlinThrowable>)
      requires Valid()
      modifies tts
      ensures Valid()
      ensures TtsCommand(call).Invalid? ==> r == Success(ErrorReply(InvalidArgs, TtsCommand(call).message)) && unchanged(tts)
      ensures TtsCommand(call).Unknown? ==> r == Success(NotImplemented) && unchanged(tts)
      ensures TtsCommand(call).LoadTts? ==>
                var thrown := openSession(SourceOf(TtsCommand(call).modelPath));
                && (thrown == None ==> r == Success(Replied(BoolValue(true))) && tts.IsLoaded())
                && (thrown.Some? ==> unchanged(tts))
                && (thrown.Some? && !thrown.value.IsError() ==> r == Success(Replied(BoolValue(false))))
                && (thrown.Some? && thrown.value.IsError() ==> r == Failure(thrown.value))
      ensures TtsCommand(call).Synthesize? ==>
                var c := TtsCommand(call);
                r == Caught(SynthesizeError, AsBytes(TtsAndroid.Synthesis(
                       old(tts.isModelLoaded && tts.hasSession), c.text, c.speed, c.voice, infer, negativeSizeMessage)))
                && unchanged(tts)
    {
      match TtsCommand(call) {
        case LoadTts(modelPath) =>
          var loaded := tts.LoadModel(modelPath, openSession);
          match loaded {
            case Success(success) => r := Success(Replied(BoolValue(success)));
            case Failure(e) => r := Failure(e);
          }
        case Synthesize(text, speed, voice) =>
          var audioData := tts.Synthesize(text, speed, voice, infer, negativeSizeMessage);
          r := Caught(SynthesizeError, AsBytes(audioData));
        case Invalid(message) =>
          r := Success(ErrorReply(InvalidArgs, message));
        case _ =>
          r := Success(NotImplemented);
      }
    }

    /**
     * Unloads stt, then llm, then tts. A session close that throws (sttClose
     * or ttsClose holding its message) propagates at once and skips the
     * unloads after it; the LLM wrapper swallows its own failures.
     */
    method UnloadWrappers(sttClose: Option<string>, llmUnloadThrows: bool, ttsClose: Option<string>)
      returns (thrown: Option<string>)
      requires Valid()
      modifies stt, llm, tts
      ensures Valid()
      ensures old(stt.hasSession) && sttClose.Some? ==> thrown == sttClose && unchanged(stt, llm, tts)
      ensures !(old(stt.hasSession) && sttClose.Some?) ==>
                !stt.IsLoaded()
                && (old(llm.isModelLoaded) && !llmUnloadThrows ==> !llm.isModelLoaded && llm.modelPath == None)
                && (!old(llm.isModelLoaded) || llmUnloadThrows ==> unchanged(llm))
                && (old(tts.hasSession) && ttsClose.Some? ==> thrown == ttsClose && unchanged(tts))
                && (!(old(tts.hasSession) && ttsClose.Some?) ==> thrown == None && !tts.IsLoaded())
    {
      var sttThrew := stt.Unload(sttClose.Some?);
      if sttThrew {
        return sttClose;
      }
      llm.Unload(llmUnloadThrows);
      var ttsThrew := tts.Unload(ttsClose.Some?);
      if ttsThrew {
        return ttsClose;
      }
      thrown := None;
    }

    /**
     * nova/model. getModelInfo and isLoaded report the wrappers' isLoaded()
     * (the LLM's also asks the native side, nativeIsLoaded); unloadAll runs
     * the three unloads and answers null, or UNLOAD_ERROR with the message of
     * the close that threw.
     */
    method HandleModel(call: MethodCall, nativeIsLoaded: bool,
                       sttClose: Option<string>, llmUnloadThrows: bool, ttsClose: Option<string>)
      returns (reply: Reply)
      requires Valid()
      modifies stt, llm, tts
      ensures Valid()
      ensures ModelCommand(call).GetModelInfo? ==>
                reply == Replied(LoadedFlags(stt.IsLoaded(), llm.IsLoaded(nativeIsLoaded), tts.IsLoaded()))
                && unchanged(stt, llm, tts)
      ensures ModelCommand(call).IsLoaded? ==>
                reply == Replied(BoolValue(LoadedFor(ModelCommand(call).modelType,
                                                     stt.IsLoaded(), llm.IsLoaded(nativeIsLoaded), tts.IsLoaded())))
                && unchanged(stt, llm, tts)
      ensures ModelCommand(call).Unknown? ==> reply == NotImplemented && unchanged(stt, llm, tts)
      ensures ModelCommand(call).UnloadAll? && old(stt.hasSession) && sttClose.Some? ==>
                reply == ErrorReply(UnloadError, sttClose.value) && unchanged(stt, llm, tts)
      ensures ModelCommand(call).UnloadAll? && !(old(stt.hasSession) && sttClose.Some?) ==>
                !stt.IsLoaded()
                && (old(llm.isModelLoaded) && !llmUnloadThrows ==> !llm.isModelLoaded && llm.modelPath == None)
                && (!old(llm.isModelLoaded) || llmUnloadThrows ==> unchanged(llm))
                && (old(tts.hasSession) && ttsClose.Some? ==> reply == ErrorReply(UnloadError, ttsClose.value) && unchanged(tts))
                && (!(old(tts.hasSession) && ttsClose.Some?) ==> reply == Replied(NullValue) && !tts.IsLoaded())
    {
      match ModelCommand(call) {
        case GetModelInfo =>
          reply := Replied(LoadedFlags(stt.IsLoaded(), llm.IsLoaded(nativeIsLoaded), tts.IsLoaded()));
        case UnloadAll =>
          var thrown := UnloadWrappers(sttClose, llmUnloadThrows, ttsClose);
          if thrown.Some? {
            reply := ErrorReply(UnloadError, thrown.value);
          } else {
            reply := Replied(NullValue);
          }
        case IsLoaded(modelType) =>
          var loaded := LoadedFor(modelType, stt.IsLoaded(), llm.IsLoaded(nativeIsLoaded), tts.IsLoaded());
          reply := Replied(BoolValue(loaded));
        case _ =>
          reply := NotImplemented;
      }
    }

    /** onDestroy: the same three unloads, with nothing to catch a close that throws. */
    method OnDestroy(sttClose: Option<string>, llmUnloadThrows: bool, ttsClose: Option<string>)
      returns (thrown: Option<string>)
      requires Valid()
      modifies stt, llm, tts
      ensures Valid()
      ensures old(stt.hasSession) && sttClose.Some? ==> thrown == sttClose && unchanged(stt, llm, tts)
      ensures !(old(stt.hasSession) && sttClose.Some?) ==>
                !stt.IsLoaded()
                && (old(llm.isModelLoaded) && !llmUnloadThrows ==> !llm.isModelLoaded && llm.modelPath == None)
                && (!old(llm.isModelLoaded) || llmUnloadThrows ==> unchanged(llm))
                && (old(tts.hasSession) && ttsClose.Some? ==> thrown == ttsClose && unchanged(tts))
                && (!(old(tts.hasSession) && ttsClose.Some?) ==> thrown == None && !tts.IsLoaded())
    {
      thrown := UnloadWrappers(sttClose, llmUnloadThrows, ttsClose);
    }
  }
}

=== FILE: AppIos.dfy ===
/**
 * The iOS entry point (AppDelegate.swift): optional wrappers, created at
 * launch, and the same four method channels. A call on an absent wrapper
 * falls back to a neutral answer (false, "", empty data). Thrown errors become
 * error replies with the error's localized description. unloadAll cannot fail.
 */
module AppIos {
  import opened Wrappers
  import opened Numeric
  import opened Errors
  import opened Channel
  import opened Dispatch
  import LlmPrompt
  import SttIos
  import LlmIos
  import TtsIos

  /** A wrapper call inside `do { try … } catch`: the value is replied; an error becomes the error reply `code` with its description. */
  function CaughtNS(code: string, outcome: Result<Value, NSError>): (reply: Reply)
    ensures reply.ErrorReply? <==> outcome.Failure?
    ensures outcome.Success? ==> reply == Replied(outcome.value)
    ensures outcome.Failure? ==> reply == ErrorReply(code, outcome.error.description)
  {
    match outcome
    case Success(v) => Replied(v)
    case Failure(e) => ErrorReply(code, e.description)
  }

  function AsString(outcome: Result<string, NSError>): Result<Value, NSError> {
    match outcome
    case Success(s) => Success(StringValue(s))
    case Failure(e) => Failure(e)
  }

  function AsBytes(outcome: Result<seq<byte>, NSError>): Result<Value, NSError> {
    match outcome
    case Success(b) => Success(BytesValue(b))
    case Failure(e) => Failure(e)
  }

  class AppDelegate {
    var stt: SttIos.ParakeetNative?
    var llm: LlmIos.LFM2Native?
    var tts: TtsIos.KokoroNative?

    predicate Valid()
      reads this, llm
    {
      llm != null ==> llm.Valid()
    }

    /** Before launch no wrapper exists. */
    constructor ()
      ensures Valid() && stt == null && llm == null && tts == null
    {
      stt := null;
      llm := null;
      tts := null;
    }

    /** application(_:didFinishLaunchingWithOptions:): three new wrappers, none of them loaded. */
    method DidFinishLaunching()
      modifies this
      ensures Valid()
      ensures stt != null && llm != null && tts != null && fresh(stt) && fresh(llm) && fresh(tts)
      ensures !stt.IsLoaded() && !llm.IsLoaded() && !tts.IsLoaded()
    {
      stt := new SttIos.ParakeetNative();
      llm := new LlmIos.LFM2Native();
      tts := new TtsIos.KokoroNative();
    }

    /**
     * nova/stt. loadModel answers the wrapper's flag, or false without a
     * wrapper; transcribe answers the wrapper's transcript ("" without a
     * wrapper) or TRANSCRIBE_ERROR with the error's description.
     */
    method HandleStt(call: MethodCall, fileExists: string -> bool) returns (reply: Reply)
      modifies stt
      ensures SttCommand(call).Invalid? ==>
                reply == ErrorReply(InvalidArgs, SttCommand(call).message) && (stt != null ==> unchanged(stt))
      ensures SttCommand(call).Unknown? ==> reply == NotImplemented && (stt != null ==> unchanged(stt))
      ensures SttCommand(call).LoadStt? ==>
                var ok := stt != null && fileExists(SttCommand(call).modelPath);
                reply == Replied(BoolValue(ok)) && (ok ==> stt.IsLoaded()) && (!ok ==> (stt != null ==> unchanged(stt)))
      ensures SttCommand(call).Transcribe? && stt == null ==> reply == Replied(StringValue(""))
      ensures SttCommand(call).Transcribe? && stt != null ==>
                reply == CaughtNS(TranscribeError, AsString(SttIos.Transcription(stt.isModelLoaded)))
                && unchanged(stt)
    {
      match SttCommand(call) {
        case LoadStt(modelPath) =>
          var success := false;
          if stt != null {
            success := stt.LoadModel(modelPath, fileExists);
          }
          reply := Replied(BoolValue(success));
        case Transcribe(audioData) =>
          if stt != null {
            var transcript := stt.Transcribe(audioData);
            reply := CaughtNS(TranscribeError, AsString(transcript));
          } else {
            reply := Replied(StringValue(""));
          }
        case Invalid(message) =>
          reply := ErrorReply(InvalidArgs, message);
        case _ =>
          reply := NotImplemented;
      }
    }

    /**
     * nova/llm. loadModel (context size and threads defaulting to 2048 and 4)
     * answers the wrapper's flag, or false without a wrapper; generate
     * (defaults 256, 0.7, 0.9) answers the response ("" without a wrapper) or
     * GENERATE_ERROR with the error's description.
     */
    method HandleLlm(call: MethodCall, fileExists: string -> bool) returns (reply: Reply)
      requires Valid()
      modifies llm
      ensures Valid()
      ensures LlmCommand(call).Invalid? ==>
                reply == ErrorReply(InvalidArgs, LlmCommand(call).message) && (llm != null ==> unchanged(llm))
      ensures LlmCommand(call).Unknown? ==> reply == NotImplemented && (llm != null ==> unchanged(llm))
      ensures LlmCommand(call).LoadLlm? ==>
                var c := LlmCommand(call);
                var ok := llm != null && fileExists(c.modelPath);
                reply == Replied(BoolValue(ok))
                && (ok ==> llm.GetModelInfo() == LlmPrompt.Info(true, c.modelPath, c.contextSize, c.threads))
                && (!ok ==> (llm != null ==> unchanged(llm)))
      ensures LlmCommand(call).Generate? && llm == null ==> reply == Replied(StringValue(""))
      ensures LlmCommand(call).Generate? && llm != null ==>
                var c := LlmCommand(call);
                reply == CaughtNS(GenerateError, AsString(llm.Generate(c.prompt, c.maxTokens, c.temperature, c.topP)))
                && (llm != null ==> unchanged(llm))
    {
      match LlmCommand(call) {
        case LoadLlm(modelPath, contextSize, threads) =>
          var success := false;
          if llm != null {
            success := llm.LoadModel(modelPath, contextSize, threads, fileExists);
          }
          reply := Replied(BoolValue(success));
        case Generate(prompt, maxTokens, temperature, topP) =>
          if llm != null {
            var response := llm.Generate(prompt, maxTokens, temperature, topP);
            reply := CaughtNS(GenerateError, AsString(response));
          } else {
            reply := Replied(StringValue(""));
          }
        case Invalid(message) =>
          reply := ErrorReply(InvalidArgs, message);
        case _ =>
          reply := NotImplemented;
      }
    }

    /**
     * nova/tts. loadModel answers the wrapper's flag, or false without a
     * wrapper; synthesize (speed 1.0 and voice "female" by default) answers
     * the PCM bytes (empty data without a wrapper) or SYNTHESIZE_ERROR with the
     * error's description.
     */
    method HandleTts(call: MethodCall, fileExists: string -> bool) returns (reply: Reply)
      modifies tts
      ensures TtsCommand(call).Invalid? ==>
                reply == ErrorReply(InvalidArgs, TtsCommand(call).message) && (tts != null ==> unchanged(tts))
      ensures TtsCommand(call).Unknown? ==> reply == NotImplemented && (tts != null ==> unchanged(tts))
      ensures TtsCommand(call).LoadTts? ==>
                var ok := tts != null && fileExists(TtsCommand(call).modelPath);
                reply == Replied(BoolValue(ok)) && (ok ==> tts.IsLoaded()) && (!ok ==> (tts != null ==> unchanged(tts)))
      ensures TtsCommand(call).Synthesize? && tts == null ==> reply == Replied(BytesValue([]))
      ensures TtsCommand(call).Synthesize? && tts != null ==>
                reply == CaughtNS(SynthesizeError, AsBytes(TtsIos.Synthesis(tts.isModelLoaded)))
                && unchanged(tts)
    {
      match TtsCommand(call) {
        case LoadTts(modelPath) =>
          var success := false;
          if tts != null {
            success := tts.LoadModel(modelPath, fileExists);
          }
          reply := Replied(BoolValue(success));
        case Synthesize(text, speed, voice) =>
          if tts != null {
            var audioData := tts.Synthesize(text, speed, voice);
            reply := CaughtNS(SynthesizeError, AsBytes(audioData));
          } else {
            reply := Replied(BytesValue([]));
          }
        case Invalid(message) =>
          reply := ErrorReply(InvalidArgs, message);
        case _ =>
          reply := NotImplemented;
      }
    }

    /** Whether each wrapper is loaded, false for an absent one: the flags getModelInfo and isLoaded read. */
    function SttLoaded(): bool
      reads this, stt
    {
      stt != null && stt.IsLoaded()
    }

    function LlmLoaded(): bool
      reads this, llm
    {
      llm != null && llm.IsLoaded()
    }

    function TtsLoaded(): bool
      reads this, tts
    {
      tts != null && tts.IsLoaded()
    }

    /** Unloads every present wrapper: stt, then llm, then tts. None of them can fail. */
    method UnloadWrappers()
      requires Valid()
      modifies stt, llm, tts
      ensures Valid()
      ensures !SttLoaded() && !LlmLoaded() && !TtsLoaded()
      ensures stt != null ==> stt.modelPath == None
      ensures tts != null ==> tts.modelPath == None
      ensures llm != null && old(llm.isModelLoaded) ==>
                llm.modelPath == None && llm.contextSize == old(llm.contextSize) && llm.nThreads == old(llm.nThreads)
      ensures llm != null && !old(llm.isModelLoaded) ==> unchanged(llm)
    {
      if stt != null {
        stt.Unload();
      }
      if llm != null {
        llm.Unload();
      }
      if tts != null {
        tts.Unload();
      }
    }

    /**
     * nova/model. getModelInfo and isLoaded report each wrapper's flag (false
     * when absent; isLoaded also answers false with no modelType); unloadAll
     * unloads every wrapper and always answers null.
     */
    method HandleModel(call: MethodCall) returns (reply: Reply)
      requires Valid()
      modifies stt, llm, tts
      ensures Valid()
      ensures ModelCommand(call).GetModelInfo? ==>
                reply == Replied(LoadedFlags(SttLoaded(), LlmLoaded(), TtsLoaded()))
                && (stt != null ==> unchanged(stt)) && (llm != null ==> unchanged(llm))
                && (tts != null ==> unchanged(tts))
      ensures ModelCommand(call).IsLoaded? ==>
                reply == Replied(BoolValue(LoadedFor(ModelCommand(call).modelType, SttLoaded(), LlmLoaded(), TtsLoaded())))
                && (stt != null ==> unchanged(stt)) && (llm != null ==> unchanged(llm))
                && (tts != null ==> unchanged(tts))
      ensures ModelCommand(call).UnloadAll? ==>
                reply == Replied(NullValue) && !SttLoaded() && !LlmLoaded() && !TtsLoaded()
                && (stt != null ==> stt.modelPath == None)
                && (tts != null ==> tts.modelPath == None)
                && (llm != null && old(llm.isModelLoaded) ==>
                      llm.modelPath == None && llm.contextSize == old(llm.contextSize) && llm.nThreads == old(llm.nThreads))
                && (llm != null && !old(llm.isModelLoaded) ==> unchanged(llm))
      ensures ModelCommand(call).Unknown? ==>
                reply == NotImplemented
                && (stt != null ==> unchanged(stt)) && (llm != null ==> unchanged(llm))
                && (tts != null ==> unchanged(tts))
    {
      match ModelCommand(call) {
        case GetModelInfo =>
          reply := Replied(LoadedFlags(SttLoaded(), LlmLoaded(), TtsLoaded()));
        case UnloadAll =>
          UnloadWrappers();
          reply := Replied(NullValue);
        case IsLoaded(modelType) =>
          reply := Replied(BoolValue(LoadedFor(modelType, SttLoaded(), LlmLoaded(), TtsLoaded())));
        case _ =>
          reply := NotImplemented;
      }
    }

    /** applicationWillTerminate: the same unloads, with the same post-state. */
    method ApplicationWillTerminate()
      requires Valid()
      modifies stt, llm, tts
      ensures Valid()
      ensures !SttLoaded() && !LlmLoaded() && !TtsLoaded()
      ensures stt != null ==> stt.modelPath == None
      ensures tts != null ==> tts.modelPath == None
      ensures llm != null && old(llm.isModelLoaded) ==>
                llm.modelPath == None && llm.contextSize == old(llm.contextSize) && llm.nThreads == old(llm.nThreads)
      ensures llm != null && !old(llm.isModelLoaded) ==> unchanged(llm)
    {
      UnloadWrappers();
    }
  }
}

=== FILE: Audio.dfy ===
/**
 * The audio wire format of both platforms: mono 16-bit signed PCM, little-endian,
 * and its conversion to and from normalised samples. Samples are modelled as
 * reals: dividing an int16 by 32768 is exact in single precision, so decoding
 * is modelled exactly; encoding multiplies by 32767 and truncates toward zero.
 */
module Audio {
  import opened Numeric

  const SampleRate: nat := 16000

  /** The two's-complement value of a little-endian pair of bytes. */
  function FromLittleEndian(lo: byte, hi: byte): (v: int16)
  {
    var u := lo + 0x100 * hi;
    if u >= 0x8000 then u - 0x1_0000 else u
  }

  function LowByte(v: int16): byte {
    (v as int % 0x1_0000) % 0x100
  }

  function HighByte(v: int16): byte {
    (v as int % 0x1_0000) / 0x100
  }

  lemma SampleRoundTrip(v: int16)
    ensures FromLittleEndian(LowByte(v), HighByte(v)) == v
  {
    var u := v as int % 0x1_0000;
    assert v >= 0 ==> u == v;
    assert v < 0 ==> u == v + 0x1_0000;
    assert LowByte(v) + 0x100 * HighByte(v) == u;
  }

  lemma BytesRoundTrip(lo: byte, hi: byte)
    ensures LowByte(FromLittleEndian(lo, hi)) == lo
    ensures HighByte(FromLittleEndian(lo, hi)) == hi
  {
    var u := lo + 0x100 * hi;
    var v := FromLittleEndian(lo, hi);
    assert v as int % 0x1_0000 == u;
    assert u % 0x100 == lo && u / 0x100 == hi;
  }

  /** Sample i of a byte buffer: bytes 2i (low) and 2i+1 (high). */
  function SampleAt(pcm: seq<byte>, i: nat): int16
    requires 2 * i + 1 < |pcm|
  {
    FromLittleEndian(pcm[2 * i], pcm[2 * i + 1])
  }

  /** The samples of a byte buffer; a trailing odd byte is ignored. */
  function Samples(pcm: seq<byte>): (r: seq<int16>)
    ensures |r| == |pcm| / 2
  {
    seq(|pcm| / 2, i requires 0 <= i < |pcm| / 2 => SampleAt(pcm, i))
  }

  /** The little-endian byte buffer of a sequence of samples. */
  function Encode(samples: seq<int16>): (pcm: seq<byte>)
    ensures |pcm| == 2 * |samples|
  {
    if samples == [] then []
    else [LowByte(samples[0]), HighByte(samples[0])] + Encode(samples[1..])
  }

  lemma {:induction false} EncodeAt(samples: seq<int16>, i: nat)
    requires i < |samples|
    ensures Encode(samples)[2 * i] == LowByte(samples[i])
    ensures Encode(samples)[2 * i + 1] == HighByte(samples[i])
  {
    if i > 0 {
      EncodeAt(samples[1..], i - 1);
    }
  }

  /** Decoding an encoded buffer gives the samples back. */
  lemma DecodeEncode(samples: seq<int16>)
    ensures Samples(Encode(samples)) == samples
  {
    var pcm := Encode(samples);
    forall i | 0 <= i < |samples|
      ensures Samples(pcm)[i] == samples[i]
    {
      EncodeAt(samples, i);
      SampleRoundTrip(samples[i]);
    }
  }

  /** Encoding the samples of an even-length buffer gives the buffer back. */
  lemma EncodeDecode(pcm: seq<byte>)
    requires |pcm| % 2 == 0
    ensures Encode(Samples(pcm)) == pcm
  {
    var samples := Samples(pcm);
    var back := Encode(samples);
    forall j | 0 <= j < |pcm|
      ensures back[j] == pcm[j]
    {
      var i := j / 2;
      EncodeAt(samples, i);
      BytesRoundTrip(pcm[2 * i], pcm[2 * i + 1]);
    }
  }

  /** A sample divided by 32768: always in [-1, 1). */
  function Normalize(v: int16): (x: real)
    ensures -1.0 <= x < 1.0
  {
    v as real / 32768.0
  }

  /** The normalised samples of a byte buffer, as both speech-to-text wrappers compute them. */
  function NormalizedSamples(pcm: seq<byte>): (xs: seq<real>)
    ensures |xs| == |pcm| / 2
    ensures forall i :: 0 <= i < |xs| ==> -1.0 <= xs[i] < 1.0
  {
    seq(|pcm| / 2, i requires 0 <= i < |pcm| / 2 => Normalize(SampleAt(pcm, i)))
  }

  /** coerceIn(-1f, 1f) and min(max(x, -1), 1). */
  function ClampUnit(x: real): (c: real)
    ensures -1.0 <= c <= 1.0
    ensures -1.0 <= x <= 1.0 ==> c == x
    ensures x < -1.0 ==> c == -1.0
    ensures x > 1.0 ==> c == 1.0
  {
    if x < -1.0 then -1.0 else if x > 1.0 then 1.0 else x
  }

  /** A normalised sample as 16-bit PCM: clamped, scaled by 32767, truncated toward zero. */
  function ToPcm16(x: real): (v: int16)
    ensures -32767 <= v <= 32767
    ensures x >= 0.0 ==> v >= 0
    ensures x <= 0.0 ==> v <= 0
  {
    TruncateTowardZero(ClampUnit(x) * 32767.0)
  }

  /** Every sample converted to 16-bit PCM. */
  function Quantized(xs: seq<real>): (vs: seq<int16>)
    ensures |vs| == |xs|
  {
    seq(|xs|, i requires 0 <= i < |xs| => ToPcm16(xs[i]))
  }

  /** The PCM bytes of float samples: each clamped, scaled, truncated, then written little-endian. */
  function PcmOf(xs: seq<real>): (pcm: seq<byte>)
    ensures |pcm| == 2 * |xs|
  {
    Encode(Quantized(xs))
  }

  /** Encoding an in-range sample and decoding it again is off by less than two steps of 1/32768. */
  lemma QuantizationError(x: real)
    requires -1.0 <= x <= 1.0
    ensures -2.0 / 32768.0 < Normalize(ToPcm16(x)) - x < 2.0 / 32768.0
  {
    var p := x * 32767.0;
    var t := ToPcm16(x);
    assert -1.0 < t as real - p < 1.0;
    calc {
      Normalize(t) - x;
      t as real / 32768.0 - x;
      (t as real - p) / 32768.0 + (p - 32768.0 * x) / 32768.0;
      (t as real - p) / 32768.0 - x / 32768.0;
    }
  }
}

=== FILE: Channel.dfy ===
/**
 * The method-channel boundary between the UI layer and the wrappers: a call
 * names a method and carries a map of arguments; the handler answers with a
 * value, an error code and message, or "not implemented".
 */
module Channel {
  import opened Wrappers
  import opened Numeric

  datatype Arg = StrArg(s: string) | IntArg(i: int) | RealArg(r: real) | BytesArg(bytes: seq<byte>)

  /** The arguments of a call: a map from names, or none at all. */
  type Arguments = Option<map<string, Arg>>

  datatype MethodCall = MethodCall(name: string, arguments: Arguments)

  datatype Value =
    | NullValue
    | BoolValue(b: bool)
    | StringValue(s: string)
    | BytesValue(bytes: seq<byte>)
    | FlagsValue(flags: map<string, bool>)

  datatype Reply = Replied(value: Value) | ErrorReply(code: string, message: string) | NotImplemented

  const InvalidArgs := "INVALID_ARGS"

  /** The named argument when it is present and a string; otherwise absent. */
  function StringArgument(args: Arguments, key: string): (r: Option<string>)
    ensures r.Some? <==> args.Some? && key in args.value && args.value[key].StrArg?
    ensures r.Some? ==> args.value[key] == StrArg(r.value)
  {
    if args.Some? && key in args.value && args.value[key].StrArg? then Some(args.value[key].s) else None
  }

  function IntArgument(args: Arguments, key: string): (r: Option<int>)
    ensures r.Some? <==> args.Some? && key in args.value && args.value[key].IntArg?
    ensures r.Some? ==> args.value[key] == IntArg(r.value)
  {
    if args.Some? && key in args.value && args.value[key].IntArg? then Some(args.value[key].i) else None
  }

  function RealArgument(args: Arguments, key: string): (r: Option<real>)
    ensures r.Some? <==> args.Some? && key in args.value && args.value[key].RealArg?
    ensures r.Some? ==> args.value[key] == RealArg(r.value)
  {
    if args.Some? && key in args.value && args.value[key].RealArg? then Some(args.value[key].r) else None
  }

  function BytesArgument(args: Arguments, key: string): (r: Option<seq<byte>>)
    ensures r.Some? <==> args.Some? && key in args.value && args.value[key].BytesArg?
    ensures r.Some? ==> args.value[key] == BytesArg(r.value)
  {
    if args.Some? && key in args.value && args.value[key].BytesArg? then Some(args.value[key].bytes) else None
  }

  /** Kotlin's `?:` and Swift's `??`: the value if present, else the default. */
  function OrElse<T>(o: Option<T>, default: T): (r: T)
    ensures o.None? ==> r == default
    ensures o.Some? ==> r == o.value
  {
    if o.Some? then o.value else default
  }
}

=== FILE: Dispatch.dfy ===
/**
 * How the entry points read a call on each of their four channels (nova/stt,
 * nova/llm, nova/tts and nova/model). The method name picks the operation. A
 * required argument that is missing, or not of the expected type, turns the
 * call into an INVALID_ARGS error with a fixed message. Optional arguments
 * take their defaults, and any other method name is not implemented.
 * MainActivity.kt and AppDelegate.swift read their calls alike; what they do
 * with a command differs and is modelled in AppAndroid and AppIos.
 */
module Dispatch {
  import opened Wrappers
  import opened Numeric
  import opened Channel

  /** A call as the handler understands it. */
  datatype Command =
    | LoadStt(modelPath: string)
    | Transcribe(audioData: seq<byte>)
    | LoadLlm(modelPath: string, contextSize: int, threads: int)
    | Generate(prompt: string, maxTokens: int, temperature: real, topP: real)
    | LoadTts(modelPath: string)
    | Synthesize(text: string, speed: real, voice: string)
    | GetModelInfo
    | UnloadAll
    | IsLoaded(modelType: Option<string>)
    | Invalid(message: string)
    | Unknown

  const DefaultContextSize := 2048
  const DefaultThreads := 4
  const DefaultMaxTokens := 256
  const DefaultTemperature := 0.7
  const DefaultTopP := 0.9
  const DefaultSpeed := 1.0
  const DefaultVoice := "female"

  const LoadError := "LOAD_ERROR"
  const TranscribeError := "TRANSCRIBE_ERROR"
  const GenerateError := "GENERATE_ERROR"
  const SynthesizeError := "SYNTHESIZE_ERROR"
  const UnloadError := "UNLOAD_ERROR"

  /** nova/stt: loadModel needs a modelPath, transcribe needs audioData. */
  function SttCommand(call: MethodCall): (c: Command)
    ensures c.LoadStt? || c.Transcribe? || c.Invalid? || c.Unknown?
    ensures c.Unknown? <==> call.name != "loadModel" && call.name != "transcribe"
    ensures c.LoadStt? <==> call.name == "loadModel" && StringArgument(call.arguments, "modelPath").Some?
    ensures c.LoadStt? ==> c.modelPath == StringArgument(call.arguments, "modelPath").value
    ensures c.Transcribe? <==> call.name == "transcribe" && BytesArgument(call.arguments, "audioData").Some?
    ensures c.Transcribe? ==> c.audioData == BytesArgument(call.arguments, "audioData").value
    ensures c.Invalid? ==> c.message == if call.name == "loadModel" then "modelPath is required" else "audioData is required"
  {
    if call.name == "loadModel" then
      match StringArgument(call.arguments, "modelPath")
      case Some(modelPath) => LoadStt(modelPath)
      case None => Invalid("modelPath is required")
    else if call.name == "transcribe" then
      match BytesArgument(call.arguments, "audioData")
      case Some(audioData) => Transcribe(audioData)
      case None => Invalid("audioData is required")
    else Unknown
  }

  /**
   * nova/llm: loadModel needs a modelPath (contextSize defaults to 2048,
   * threads to 4); generate needs a prompt (maxTokens defaults to 256,
   * temperature to 0.7, topP to 0.9).
   */
  function LlmCommand(call: MethodCall): (c: Command)
    ensures c.LoadLlm? || c.Generate? || c.Invalid? || c.Unknown?
    ensures c.Unknown? <==> call.name != "loadModel" && call.name != "generate"
    ensures c.LoadLlm? <==> call.name == "loadModel" && StringArgument(call.arguments, "modelPath").Some?
    ensures c.LoadLlm? ==>
              c.modelPath == StringArgument(call.arguments, "modelPath").value
              && c.contextSize == OrElse(IntArgument(call.arguments, "contextSize"), DefaultContextSize)
              && c.threads == OrElse(IntArgument(call.arguments, "threads"), DefaultThreads)
    ensures c.Generate? <==> call.name == "generate" && StringArgument(call.arguments, "prompt").Some?
    ensures c.Generate? ==>
              c.prompt == StringArgument(call.arguments, "prompt").value
              && c.maxTokens == OrElse(IntArgument(call.arguments, "maxTokens"), DefaultMaxTokens)
              && c.temperature == OrElse(RealArgument(call.arguments, "temperature"), DefaultTemperature)
              && c.topP == OrElse(RealArgument(call.arguments, "topP"), DefaultTopP)
    ensures c.Invalid? ==> c.message == if call.name == "loadModel" then "modelPath is required" else "prompt is required"
  {
    var args := call.arguments;
    if call.name == "loadModel" then
      match StringArgument(args, "modelPath")
      case Some(modelPath) =>
        LoadLlm(modelPath, OrElse(IntArgument(args, "contextSize"), DefaultContextSize),
                OrElse(IntArgument(args, "threads"), DefaultThreads))
      case None => Invalid("modelPath is required")
    else if call.name == "generate" then
      match StringArgument(args, "prompt")
      case Some(prompt) =>
        Generate(prompt, OrElse(IntArgument(args, "maxTokens"), DefaultMaxTokens),
                 OrElse(RealArgument(args, "temperature"), DefaultTemperature),
                 OrElse(RealArgument(args, "topP"), DefaultTopP))
      case None => Invalid("prompt is required")
    else Unknown
  }

  /** nova/tts: loadModel needs a modelPath; synthesize needs text (speed defaults to 1.0, voice to "female"). */
  function TtsCommand(call: MethodCall): (c: Command)
    ensures c.LoadTts? || c.Synthesize? || c.Invalid? || c.Unknown?
    ensures c.Unknown? <==> call.name != "loadModel" && call.name != "synthesize"
    ensures c.LoadTts? <==> call.name == "loadModel" && StringArgument(call.arguments, "modelPath").Some?
    ensures c.LoadTts? ==> c.modelPath == StringArgument(call.arguments, "modelPath").value
    ensures c.Synthesize? <==> call.name == "synthesize" && StringArgument(call.arguments, "text").Some?
    ensures c.Synthesize? ==>
              c.text == StringArgument(call.arguments, "text").value
              && c.speed == OrElse(RealArgument(call.arguments, "speed"), DefaultSpeed)
              && c.voice == OrElse(StringArgument(call.arguments, "voice"), DefaultVoice)
    ensures c.Invalid? ==> c.message == if call.name == "loadModel" then "modelPath is required" else "text is required"
  {
    var args := call.arguments;
    if call.name == "loadModel" then
      match StringArgument(args, "modelPath")
      case Some(modelPath) => LoadTts(modelPath)
      case None => Invalid("modelPath is required")
    else if call.name == "synthesize" then
      match StringArgument(args, "text")
      case Some(text) =>
        Synthesize(text, OrElse(RealArgument(args, "speed"), DefaultSpeed),
                   OrElse(StringArgument(args, "voice"), DefaultVoice))
      case None => Invalid("text is required")
    else Unknown
  }

  /** nova/model: no argument is required; isLoaded carries the modelType when there is one. */
  function ModelCommand(call: MethodCall): (c: Command)
    ensures c.GetModelInfo? || c.UnloadAll? || c.IsLoaded? || c.Unknown?
    ensures c.GetModelInfo? <==> call.name == "getModelInfo"
    ensures c.UnloadAll? <==> call.name == "unloadAll"
    ensures c.IsLoaded? <==> call.name == "isLoaded"
    ensures c.IsLoaded? ==> c.modelType == StringArgument(call.arguments, "modelType")
  {
    if call.name == "getModelInfo" then GetModelInfo
    else if call.name == "unloadAll" then UnloadAll
    else if call.name == "isLoaded" then IsLoaded(StringArgument(call.arguments, "modelType"))
    else Unknown
  }

  /** A missing required argument is refused whatever the optional arguments say. */
  lemma {:induction false} RequiredArgumentDecides(call: MethodCall, other: MethodCall)
    requires call.name == other.name
    requires StringArgument(call.arguments, "modelPath") == StringArgument(other.arguments, "modelPath")
    requires StringArgument(call.arguments, "prompt") == StringArgument(other.arguments, "prompt")
    requires StringArgument(call.arguments, "text") == StringArgument(other.arguments, "text")
    ensures LlmCommand(call).Invalid? <==> LlmCommand(other).Invalid?
    ensures TtsCommand(call).Invalid? <==> TtsCommand(other).Invalid?
    ensures LlmCommand(call).Invalid? ==> LlmCommand(call) == LlmCommand(other)
    ensures TtsCommand(call).Invalid? ==> TtsCommand(call) == TtsCommand(other)
  {
  }

  /** The answer to getModelInfo: exactly the three loaded flags. */
  function LoadedFlags(sttLoaded: bool, llmLoaded: bool, ttsLoaded: bool): (v: Value)
    ensures v.FlagsValue? && v.flags.Keys == {"sttLoaded", "llmLoaded", "ttsLoaded"}
    ensures v.flags["sttLoaded"] == sttLoaded && v.flags["llmLoaded"] == llmLoaded && v.flags["ttsLoaded"] == ttsLoaded
  {
    FlagsValue(map["sttLoaded" := sttLoaded, "llmLoaded" := llmLoaded, "ttsLoaded" := ttsLoaded])
  }

  /** The answer to isLoaded: the flag of the wrapper "stt", "llm" or "tts" names; false for any other or no type. */
  function LoadedFor(modelType: Option<string>, sttLoaded: bool, llmLoaded: bool, ttsLoaded: bool): (r: bool)
    ensures r ==> modelType.Some? && modelType.value in {"stt", "llm", "tts"}
    ensures modelType == Some("stt") ==> r == sttLoaded
    ensures modelType == Some("llm") ==> r == llmLoaded
    ensures modelType == Some("tts") ==> r == ttsLoaded
  {
    match modelType
    case Some(t) =>
      if t == "stt" then sttLoaded
      else if t == "llm" then llmLoaded
      else if t == "tts" then ttsLoaded
      else false
    case None => false
  }

  /** isLoaded on a known type reports the same flag getModelInfo reports under that type's key. */
  lemma LoadedForAgreesWithFlags(modelType: string, sttLoaded: bool, llmLoaded: bool, ttsLoaded: bool)
    requires modelType == "stt" || modelType == "llm" || modelType == "tts"
    ensures modelType + "Loaded" in LoadedFlags(sttLoaded, llmLoaded, ttsLoaded).flags
    ensures LoadedFor(Some(modelType), sttLoaded, llmLoaded, ttsLoaded)
            == LoadedFlags(sttLoaded, llmLoaded, ttsLoaded).flags[modelType + "Loaded"]
  {
    var flags := LoadedFlags(sttLoaded, llmLoaded, ttsLoaded).flags;
    if modelType == "stt" {
      assert modelType + "Loaded" == "sttLoaded";
    } else if modelType == "llm" {
      assert modelType + "Loaded" == "llmLoaded";
    } else {
      assert modelType + "Loaded" == "ttsLoaded";
    }
  }
}

=== FILE: Errors.dfy ===
/** The errors the wrappers throw on each platform. */
module Errors {

  /**
   * What the Kotlin wrappers throw: the two exception classes they raise
   * themselves, and two Errors of the virtual machine that a
   * `catch (e: Exception)` does not intercept: OutOfMemoryError, and the
   * UnsatisfiedLinkError of a native method whose library failed to load.
   */
  datatype KotlinThrowable =
    | IllegalStateException(message: string)
    | RuntimeException(message: string)
    | OutOfMemoryError
    | UnsatisfiedLinkError
  {
    /** An Error rather than an Exception: no `catch (e: Exception)` stops it. */
    predicate IsError() {
      OutOfMemoryError? || UnsatisfiedLinkError?
    }
  }

  /** Foundation's NSError as the Swift wrappers build it. */
  datatype NSError = NSError(domain: string, code: int, description: string)

  const ModelNotLoaded := "Model not loaded"
}

=== FILE: LlmAndroid.dfy ===
/**
 * The Android LLM wrapper (LFM2Native.kt): a loaded flag with the path,
 * context size and thread count of the last load; generation through the
 * native llama.cpp binding, which the model sees only through its outcomes.
 */
module LlmAndroid {
  import opened Wrappers
  import opened Text
  import opened Errors
  import opened LlmPrompt

  /** The clamped request generate hands to native generation. */
  function GenerationRequest(prompt: string, maxTokens: int, temperature: real, topP: real): (q: Request)
    ensures q.prompt == Sanitize(prompt, KotlinWhitespace)
    ensures 1 <= q.maxTokens <= MaxTokensLimit && 0.0 <= q.temperature <= 2.0 && 0.0 <= q.topP <= 1.0
    ensures 1 <= maxTokens <= MaxTokensLimit ==> q.maxTokens == maxTokens
    ensures maxTokens < 1 ==> q.maxTokens == 1
    ensures maxTokens > MaxTokensLimit ==> q.maxTokens == MaxTokensLimit
    ensures 0.0 <= temperature <= 2.0 ==> q.temperature == temperature
    ensures temperature < 0.0 ==> q.temperature == 0.0
    ensures temperature > 2.0 ==> q.temperature == 2.0
    ensures 0.0 <= topP <= 1.0 ==> q.topP == topP
    ensures topP < 0.0 ==> q.topP == 0.0
    ensures topP > 1.0 ==> q.topP == 1.0
  {
    Request(Sanitize(prompt, KotlinWhitespace),
            CoerceIn(maxTokens, 1, MaxTokensLimit),
            CoerceInReal(temperature, 0.0, 2.0),
            CoerceInReal(topP, 0.0, 1.0))
  }

  const GenerationFailed := "Text generation failed: "

  class LFM2Native {
    var isModelLoaded: bool
    var modelPath: Option<string>
    var contextSize: int
    var nThreads: int

    /** A loaded wrapper always knows the path it loaded. */
    predicate Valid()
      reads this
    {
      isModelLoaded ==> modelPath.Some?
    }

    constructor ()
      ensures Valid()
      ensures !isModelLoaded && modelPath == None && contextSize == 2048 && nThreads == 4
    {
      isModelLoaded := false;
      modelPath := None;
      contextSize := 2048;
      nThreads := 4;
    }

    /**
     * Loads the model at path. An already loaded wrapper answers true at once.
     * A missing file answers false and changes nothing. Otherwise the path,
     * context size and thread count are recorded before the native load, and
     * the wrapper is loaded exactly when the native load answers true. An
     * exception from the native load answers false; an Error (such as the
     * UnsatisfiedLinkError left by a library that failed to load) is not
     * caught and propagates, with the settings already recorded.
     */
    method LoadModel(path: string, contextSize: int, nThreads: int, fileExists: string -> bool,
                     nativeLoad: (string, int, int) -> Result<bool, KotlinThrowable>)
      returns (r: Result<bool, KotlinThrowable>)
      requires Valid()
      modifies this
      ensures Valid()
      ensures old(isModelLoaded) ==> r == Success(true) && unchanged(this)
      ensures !old(isModelLoaded) && !fileExists(path) ==> r == Success(false) && unchanged(this)
      ensures !old(isModelLoaded) && fileExists(path) ==>
                var outcome := nativeLoad(path, contextSize, nThreads);
                && isModelLoaded == (outcome == Success(true))
                && modelPath == Some(path) && this.contextSize == contextSize && this.nThreads == nThreads
                && (outcome.Success? ==> r == outcome)
                && (outcome.Failure? && !outcome.error.IsError() ==> r == Success(false))
                && (outcome.Failure? && outcome.error.IsError() ==> r == outcome)
    {
      if isModelLoaded {
        return Success(true);
      }
      if !fileExists(path) {
        return Success(false);
      }
      this.modelPath := Some(path);
      this.contextSize := contextSize;
      this.nThreads := nThreads;
      match nativeLoad(path, contextSize, nThreads) {
        case Success(success) =>
          if success {
            isModelLoaded := true;
          }
          r := Success(success);
        case Failure(e) =>
          if e.IsError() {
            r := Failure(e);
          } else {
            r := Success(false);
          }
      }
    }

    /**
     * Generation: refused with "Model not loaded" when unloaded, without
     * reaching native generation; otherwise the clamped request goes to
     * native generation, whose answer is trimmed and whose failure is
     * rethrown as "Text generation failed: " and its message.
     */
    function Generate(prompt: string, maxTokens: int, temperature: real, topP: real,
                      nativeGenerate: Request -> Result<string, string>): (r: Result<string, KotlinThrowable>)
      reads this
      ensures !isModelLoaded <==> r == Failure(IllegalStateException(ModelNotLoaded))
      ensures r.Success? ==> IsTrimmed(r.value, KotlinWhitespace)
      ensures r.Success? ==> nativeGenerate(GenerationRequest(prompt, maxTokens, temperature, topP)).Success?
      ensures isModelLoaded && nativeGenerate(GenerationRequest(prompt, maxTokens, temperature, topP)).Success? ==>
                r == Success(Trim(nativeGenerate(GenerationRequest(prompt, maxTokens, temperature, topP)).value,
                                  KotlinWhitespace))
      ensures isModelLoaded && nativeGenerate(GenerationRequest(prompt, maxTokens, temperature, topP)).Failure? ==>
                r == Failure(RuntimeException(GenerationFailed
                     + nativeGenerate(GenerationRequest(prompt, maxTokens, temperature, topP)).error))
    {
      if !isModelLoaded then Failure(IllegalStateException(ModelNotLoaded))
      else
        match nativeGenerate(GenerationRequest(prompt, maxTokens, temperature, topP))
        case Success(response) => Success(Trim(response, KotlinWhitespace))
        case Failure(message) => Failure(RuntimeException(GenerationFailed + message))
    }

    /** The prompt in the model's turn format, built piece by piece. */
    method BuildPrompt(systemPrompt: string, conversationHistory: seq<Turn>, currentUserInput: string)
      returns (prompt: string)
      ensures prompt == Framed(systemPrompt, conversationHistory, currentUserInput)
    {
      var builder := "";
      builder := builder + SystemTag;
      builder := builder + systemPrompt;
      builder := builder + EndTag;
      for i := 0 to |conversationHistory|
        invariant builder == SystemBlock(systemPrompt) + History(conversationHistory[..i])
      {
        var (userMsg, assistantMsg) := conversationHistory[i];
        builder := builder + UserTag;
        builder := builder + userMsg;
        builder := builder + EndTag;
        builder := builder + AssistantTag;
        builder := builder + assistantMsg;
        builder := builder + EndTag;
        AppendTurn(SystemBlock(systemPrompt) + History(conversationHistory[..i]), userMsg, assistantMsg);
        HistoryStep(SystemBlock(systemPrompt), conversationHistory, i);
      }
      assert conversationHistory[..|conversationHistory|] == conversationHistory;
      AppendClose(builder, currentUserInput);
      builder := builder + UserTag;
      builder := builder + currentUserInput;
      builder := builder + EndTag;
      builder := builder + OpenAssistant;
      prompt := builder;
    }

    /**
     * Unloading acts only on a loaded wrapper: it clears the flag and the
     * path. A native unload that throws is swallowed and leaves everything as
     * it was.
     */
    method Unload(nativeUnloadThrows: bool)
      requires Valid()
      modifies this
      ensures Valid()
      ensures old(isModelLoaded) && !nativeUnloadThrows ==>
                !isModelLoaded && modelPath == None
                && contextSize == old(contextSize) && nThreads == old(nThreads)
      ensures !old(isModelLoaded) || nativeUnloadThrows ==> unchanged(this)
    {
      if isModelLoaded {
        if !nativeUnloadThrows {
          isModelLoaded := false;
          modelPath := None;
        }
      }
    }

    /** Loaded according to both the wrapper and the native side. */
    function IsLoaded(nativeIsLoaded: bool): (r: bool)
      reads this
      ensures !isModelLoaded ==> !r
      ensures isModelLoaded ==> r == nativeIsLoaded
    {
      isModelLoaded && nativeIsLoaded
    }

    function GetModelInfo(): (info: Info)
      reads this
      ensures info.loaded == isModelLoaded && info.contextSize == contextSize && info.threads == nThreads
      ensures modelPath.None? ==> info.modelPath == ""
      ensures modelPath.Some? ==> info.modelPath == modelPath.value
    {
      Info(isModelLoaded, if modelPath.Some? then modelPath.value else "", contextSize, nThreads)
    }
  }

  /** A second load of a loaded wrapper, with any path and any oracles, keeps the first load's settings. */
  method LoadTwice(path1: string, path2: string, fileExists: string -> bool,
                   nativeLoad: (string, int, int) -> Result<bool, KotlinThrowable>)
    returns (first: Result<bool, KotlinThrowable>, second: Result<bool, KotlinThrowable>, info: Info)
    ensures first == Success(true) ==> second == Success(true) && info == Info(true, path1, 2048, 4)
  {
    var w := new LFM2Native();
    first := w.LoadModel(path1, 2048, 4, fileExists, nativeLoad);
    second := w.LoadModel(path2, 512, 1, fileExists, nativeLoad);
    info := w.GetModelInfo();
  }
}

=== FILE: LlmIos.dfy ===
/**
 * The iOS LLM wrapper (LFM2Native.swift): the same surface as on Android,
 * but loading has no already-loaded guard and never calls a native runtime,
 * and generation answers a fixed placeholder.
 */
module LlmIos {
  import opened Wrappers
  import opened Text
  import opened Errors
  import opened LlmPrompt

  const Domain := "LFM2Native"
  const Placeholder := "AI response placeholder"

  /** The clamped request generate prepares (and, in this version, does not send anywhere). */
  function GenerationRequest(prompt: string, maxTokens: int, temperature: real, topP: real): (q: Request)
    ensures q.prompt == Sanitize(prompt, SwiftWhitespacesAndNewlines)
    ensures 1 <= q.maxTokens <= MaxTokensLimit && 0.0 <= q.temperature <= 2.0 && 0.0 <= q.topP <= 1.0
    ensures 1 <= maxTokens <= MaxTokensLimit ==> q.maxTokens == maxTokens
    ensures maxTokens < 1 ==> q.maxTokens == 1
    ensures maxTokens > MaxTokensLimit ==> q.maxTokens == MaxTokensLimit
    ensures 0.0 <= temperature <= 2.0 ==> q.temperature == temperature
    ensures temperature < 0.0 ==> q.temperature == 0.0
    ensures temperature > 2.0 ==> q.temperature == 2.0
    ensures 0.0 <= topP <= 1.0 ==> q.topP == topP
    ensures topP < 0.0 ==> q.topP == 0.0
    ensures topP > 1.0 ==> q.topP == 1.0
  {
    var q := Request(Sanitize(prompt, SwiftWhitespacesAndNewlines),
                     MinMax(maxTokens, 1, MaxTokensLimit),
                     MinMaxReal(temperature, 0.0, 2.0),
                     MinMaxReal(topP, 0.0, 1.0));
    ClampsAgree(maxTokens, temperature, 1, MaxTokensLimit, 0.0, 2.0);
    ClampsAgree(maxTokens, topP, 1, MaxTokensLimit, 0.0, 1.0);
    q
  }

  class LFM2Native {
    var isModelLoaded: bool
    var modelPath: Option<string>
    var contextSize: int
    var nThreads: int

    predicate Valid()
      reads this
    {
      isModelLoaded ==> modelPath.Some?
    }

    constructor ()
      ensures Valid()
      ensures !isModelLoaded && modelPath == None && contextSize == 2048 && nThreads == 4
    {
      isModelLoaded := false;
      modelPath := None;
      contextSize := 2048;
      nThreads := 4;
    }

    /**
     * A missing file answers false and changes nothing; an existing one is
     * always (re)loaded, overwriting the recorded settings even when a model
     * is already loaded.
     */
    method LoadModel(path: string, contextSize: int, threads: int, fileExists: string -> bool)
      returns (ok: bool)
      requires Valid()
      modifies this
      ensures Valid()
      ensures ok == fileExists(path)
      ensures !ok ==> unchanged(this)
      ensures ok ==> isModelLoaded && modelPath == Some(path)
                     && this.contextSize == contextSize && nThreads == threads
    {
      if !fileExists(path) {
        return false;
      }
      this.modelPath := Some(path);
      this.contextSize := contextSize;
      this.nThreads := threads;
      isModelLoaded := true;
      ok := true;
    }

    /** Unloaded: an NSError with code 1. Loaded: the placeholder, for every input. */
    function Generate(prompt: string, maxTokens: int, temperature: real, topP: real): (r: Result<string, NSError>)
      reads this
      ensures !isModelLoaded <==> r.Failure?
      ensures r.Failure? ==> r.error == NSError(Domain, 1, ModelNotLoaded)
      ensures r.Success? ==> r.value == Placeholder && IsTrimmed(r.value, SwiftWhitespacesAndNewlines)
    {
      if !isModelLoaded then Failure(NSError(Domain, 1, ModelNotLoaded))
      else
        var _ := GenerationRequest(prompt, maxTokens, temperature, topP);
        var response := Placeholder;
        assert IsTrimmed(response, SwiftWhitespacesAndNewlines);
        TrimOfTrimmed(response, SwiftWhitespacesAndNewlines);
        Success(Trim(response, SwiftWhitespacesAndNewlines))
    }

    /** The prompt in the model's turn format, grown with += in a loop. */
    method BuildPrompt(systemPrompt: string, conversationHistory: seq<Turn>, currentUserInput: string)
      returns (builder: string)
      ensures builder == Framed(systemPrompt, conversationHistory, currentUserInput)
    {
      builder := "";
      builder := builder + SystemTag;
      builder := builder + systemPrompt;
      builder := builder + EndTag;
      for i := 0 to |conversationHistory|
        invariant builder == SystemBlock(systemPrompt) + History(conversationHistory[..i])
      {
        var (userMsg, assistantMsg) := conversationHistory[i];
        builder := builder + UserTag;
        builder := builder + userMsg;
        builder := builder + EndTag;
        builder := builder + AssistantTag;
        builder := builder + assistantMsg;
        builder := builder + EndTag;
        AppendTurn(SystemBlock(systemPrompt) + History(conversationHistory[..i]), userMsg, assistantMsg);
        HistoryStep(SystemBlock(systemPrompt), conversationHistory, i);
      }
      assert conversationHistory[..|conversationHistory|] == conversationHistory;
      AppendClose(builder, currentUserInput);
      builder := builder + UserTag;
      builder := builder + currentUserInput;
      builder := builder + EndTag;
      builder := builder + OpenAssistant;
    }

    /** Acts only when loaded: clears the flag and the path; afterwards the info reports no path. */
    method Unload()
      requires Valid()
      modifies this
      ensures Valid()
      ensures !old(isModelLoaded) ==> unchanged(this)
      ensures !IsLoaded()
      ensures old(isModelLoaded) ==>
                modelPath == None && GetModelInfo().modelPath == ""
                && contextSize == old(contextSize) && nThreads == old(nThreads)
    {
      if isModelLoaded {
        isModelLoaded := false;
        modelPath := None;
      }
    }

    function IsLoaded(): (r: bool)
      reads this
    {
      isModelLoaded
    }

    function GetModelInfo(): (info: Info)
      reads this
      ensures info.loaded == isModelLoaded && info.contextSize == contextSize && info.threads == nThreads
      ensures modelPath.None? ==> info.modelPath == ""
      ensures modelPath.Some? ==> info.modelPath == modelPath.value
    {
      Info(isModelLoaded, if modelPath.Some? then modelPath.value else "", contextSize, nThreads)
    }
  }

  /** Loading a second existing file over a loaded wrapper replaces the first load's settings. */
  method Reload(path1: string, path2: string, fileExists: string -> bool) returns (info: Info)
    requires fileExists(path1) && fileExists(path2)
    ensures info == Info(true, path2, 512, 1)
  {
    var w := new LFM2Native();
    var first := w.LoadModel(path1, 2048, 4, fileExists);
    var second := w.LoadModel(path2, 512, 1, fileExists);
    info := w.GetModelInfo();
  }
}

=== FILE: LlmPrompt.dfy ===
/**
 * The LLM front end both platforms share: the turn framing the model was
 * conditioned on, prompt sanitising, the clamping of sampling parameters, and
 * the record getModelInfo reports.
 */
module LlmPrompt {
  import opened Text

  const SystemTag := "<|system|>\n"
  const UserTag := "<|user|>\n"
  const AssistantTag := "<|assistant|>\n"
  const EndTag := "\n<|end|>\n"
  /** The open assistant marker that closes every prompt. */
  const OpenAssistant := "<|assistant|>"

  /** A past exchange: what the user said and what the assistant answered. */
  type Turn = (string, string)

  function SystemBlock(system: string): string {
    SystemTag + system + EndTag
  }

  function UserBlock(message: string): string {
    UserTag + message + EndTag
  }

  function AssistantBlock(message: string): string {
    AssistantTag + message + EndTag
  }

  function TurnBlock(turn: Turn): string {
    UserBlock(turn.0) + AssistantBlock(turn.1)
  }

  /** The history blocks, appended in list order. */
  function History(history: seq<Turn>): string {
    if history == [] then []
    else History(history[..|history| - 1]) + TurnBlock(history[|history| - 1])
  }

  /** The whole prompt: system block, history, current user block, open assistant marker. */
  function Framed(system: string, history: seq<Turn>, input: string): string {
    SystemBlock(system) + History(history) + UserBlock(input) + OpenAssistant
  }

  /** The history of a concatenation is the concatenation of the histories. */
  lemma {:induction false} HistoryAppend(h1: seq<Turn>, h2: seq<Turn>)
    ensures History(h1 + h2) == History(h1) + History(h2)
    decreases |h2|
  {
    if h2 == [] {
      assert h1 + h2 == h1;
    } else {
      var init := h2[..|h2| - 1];
      var last := h2[|h2| - 1];
      LastSplit(h1, h2);
      HistoryAppend(h1, init);
      Associative(History(h1), History(init), TurnBlock(last));
    }
  }

  /** Dropping the last element of a concatenation with a non-empty right part. */
  lemma LastSplit(h1: seq<Turn>, h2: seq<Turn>)
    requires h2 != []
    ensures (h1 + h2)[..|h1 + h2| - 1] == h1 + h2[..|h2| - 1]
    ensures (h1 + h2)[|h1 + h2| - 1] == h2[|h2| - 1]
  {
  }

  /** One more turn: the history up to turn i, then turn i's block, after any prefix. */
  lemma HistoryStep(prefix: string, history: seq<Turn>, i: nat)
    requires i < |history|
    ensures prefix + History(history[..i + 1]) == prefix + History(history[..i]) + TurnBlock(history[i])
  {
    assert history[..i + 1][..i] == history[..i];
    assert History(history[..i + 1]) == History(history[..i]) + TurnBlock(history[i]);
    Associative(prefix, History(history[..i]), TurnBlock(history[i]));
  }

  lemma Associative(a: string, b: string, c: string)
    ensures a + (b + c) == a + b + c
  {
  }

  /** Appending a turn piece by piece appends its block. */
  lemma AppendTurn(prefix: string, user: string, assistant: string)
    ensures prefix + UserTag + user + EndTag + AssistantTag + assistant + EndTag == prefix + TurnBlock((user, assistant))
  {
    var u := UserBlock(user);
    var a := AssistantBlock(assistant);
    assert prefix + UserTag + user + EndTag == prefix + u;
    assert prefix + u + AssistantTag + assistant + EndTag == prefix + u + a;
    Associative(prefix, u, a);
  }

  /** Appending the user block piece by piece and the open marker completes the prompt. */
  lemma AppendClose(prefix: string, input: string)
    ensures prefix + UserTag + input + EndTag + OpenAssistant == prefix + UserBlock(input) + OpenAssistant
  {
    assert prefix + UserTag + input + EndTag == prefix + UserBlock(input);
  }

  /** Begins with the system block, ends with the user block and the open marker; with no history that is all. */
  lemma FramedShape(system: string, history: seq<Turn>, input: string)
    ensures SystemBlock(system) <= Framed(system, history, input)
    ensures var p := Framed(system, history, input);
            var suffix := UserBlock(input) + OpenAssistant;
            |suffix| <= |p| && p[|p| - |suffix|..] == suffix
    ensures history == [] ==> Framed(system, history, input) == SystemBlock(system) + UserBlock(input) + OpenAssistant
  {
    var sb := SystemBlock(system);
    var h := History(history);
    var ub := UserBlock(input);
    Regroup4(sb, h, ub, OpenAssistant);
    ConcatEnds(sb, h + ub + OpenAssistant);
    ConcatEnds(sb + h, ub + OpenAssistant);
    if history == [] {
      assert sb + h == sb;
    }
  }

  lemma Regroup4(a: string, b: string, c: string, d: string)
    ensures a + b + c + d == a + (b + c + d)
    ensures a + b + c + d == (a + b) + (c + d)
  {
  }

  /** a is a prefix and b a suffix of a + b. */
  lemma ConcatEnds(a: string, b: string)
    ensures a <= a + b
    ensures |b| <= |a + b| && (a + b)[|a + b| - |b|..] == b
  {
  }

  lemma SliceMiddle(a: string, b: string, c: string)
    ensures |a| + |b| <= |a + b + c| && (a + b + c)[|a|..|a| + |b|] == b
  {
  }

  /** The history splits around turn i. */
  lemma HistorySplitAt(history: seq<Turn>, i: nat)
    requires i < |history|
    ensures History(history) == History(history[..i]) + TurnBlock(history[i]) + History(history[i + 1..])
  {
    var before := history[..i];
    var after := history[i + 1..];
    SplitAround(history, i);
    HistoryAppend(before + [history[i]], after);
    HistoryAppend(before, [history[i]]);
    HistorySingle(history[i]);
  }

  lemma SplitAround(history: seq<Turn>, i: nat)
    requires i < |history|
    ensures history == history[..i] + [history[i]] + history[i + 1..]
  {
  }

  lemma HistorySingle(turn: Turn)
    ensures History([turn]) == TurnBlock(turn)
  {
    assert [turn][..0] == [];
  }

  /** Regrouping the pieces of a prompt whose history is split around one turn. */
  lemma Regroup(sb: string, hi: string, tb: string, ha: string, ub: string, oa: string)
    ensures sb + (hi + tb + ha) + ub + oa == (sb + hi) + tb + (ha + ub + oa)
  {
  }

  /** Turn i of the history appears in full right after the system block and turns 0..i-1. */
  lemma TurnAt(system: string, history: seq<Turn>, input: string, i: nat)
    requires i < |history|
    ensures var start := |SystemBlock(system)| + |History(history[..i])|;
            var block := TurnBlock(history[i]);
            start + |block| <= |Framed(system, history, input)|
            && Framed(system, history, input)[start..start + |block|] == block
  {
    HistorySplitAt(history, i);
    var a := SystemBlock(system) + History(history[..i]);
    var b := TurnBlock(history[i]);
    var c := History(history[i + 1..]) + UserBlock(input) + OpenAssistant;
    Regroup(SystemBlock(system), History(history[..i]), b, History(history[i + 1..]), UserBlock(input), OpenAssistant);
    SliceMiddle(a, b, c);
  }

  /** Removes every NUL character, then trims the characters of ws from both ends. */
  function Sanitize(prompt: string, ws: set<char>): (r: string)
    ensures forall i :: 0 <= i < |r| ==> r[i] != '\0'
    ensures IsTrimmed(r, ws)
  {
    Trim(Without(prompt, {'\0'}), ws)
  }

  /** Nothing but the NULs and the whitespace at the two ends is removed: the NUL-free prompt between two blank ends. */
  lemma SanitizeSlice(prompt: string, ws: set<char>)
    ensures var w := Without(prompt, {'\0'});
            var k := LeadingCount(w, ws);
            var r := Sanitize(prompt, ws);
            && k + |r| <= |w| && r == w[k..k + |r|]
            && IsBlank(w[..k], ws) && IsBlank(w[k + |r|..], ws)
  {
    var w := Without(prompt, {'\0'});
    assert Sanitize(prompt, ws) == Trim(w, ws);
  }

  /** A prompt that is already sanitised is left alone. */
  lemma {:induction false} SanitizeIdempotent(prompt: string, ws: set<char>)
    ensures Sanitize(Sanitize(prompt, ws), ws) == Sanitize(prompt, ws)
  {
    var s := Sanitize(prompt, ws);
    WithoutNothing(s, {'\0'});
    TrimOfTrimmed(s, ws);
  }

  lemma {:induction false} WithoutNothing(s: string, cs: set<char>)
    requires forall i :: 0 <= i < |s| ==> s[i] !in cs
    ensures Without(s, cs) == s
  {
    if s != [] {
      WithoutNothing(s[1..], cs);
      assert [s[0]] + s[1..] == s;
    }
  }

  /** Kotlin's coerceIn on Int. */
  function CoerceIn(x: int, lo: int, hi: int): (r: int)
    requires lo <= hi
    ensures lo <= r <= hi
    ensures lo <= x <= hi ==> r == x
    ensures x < lo ==> r == lo
    ensures x > hi ==> r == hi
  {
    if x < lo then lo else if x > hi then hi else x
  }

  /** Kotlin's coerceIn on Float. */
  function CoerceInReal(x: real, lo: real, hi: real): (r: real)
    requires lo <= hi
    ensures lo <= r <= hi
    ensures lo <= x <= hi ==> r == x
    ensures x < lo ==> r == lo
    ensures x > hi ==> r == hi
  {
    if x < lo then lo else if x > hi then hi else x
  }

  /** Swift's min(max(x, lo), hi) on Int. */
  function MinMax(x: int, lo: int, hi: int): (r: int)
    ensures r <= hi
    ensures x > hi ==> r == hi
    ensures lo <= hi ==> lo <= r
    ensures lo <= x <= hi ==> r == x
    ensures x < lo && lo <= hi ==> r == lo
  {
    var m := if x > lo then x else lo;
    if m < hi then m else hi
  }

  /** Swift's min(max(x, lo), hi) on Float. */
  function MinMaxReal(x: real, lo: real, hi: real): (r: real)
    ensures r <= hi
    ensures x > hi ==> r == hi
    ensures lo <= hi ==> lo <= r
    ensures lo <= x <= hi ==> r == x
    ensures x < lo && lo <= hi ==> r == lo
  {
    var m := if x > lo then x else lo;
    if m < hi then m else hi
  }

  /** The two platforms' clamps agree whenever the bounds are ordered. */
  lemma ClampsAgree(x: int, y: real, lo: int, hi: int, rlo: real, rhi: real)
    requires lo <= hi && rlo <= rhi
    ensures MinMax(x, lo, hi) == CoerceIn(x, lo, hi)
    ensures MinMaxReal(y, rlo, rhi) == CoerceInReal(y, rlo, rhi)
  {
  }

  const MaxTokensLimit := 1024

  /** What generate hands to native generation. */
  datatype Request = Request(prompt: string, maxTokens: int, temperature: real, topP: real)

  /** The state getModelInfo reports: the loaded flag, the path ("" when none), context size and threads. */
  datatype Info = Info(loaded: bool, modelPath: string, contextSize: int, threads: int)
}

=== FILE: ModelFiles.dfy ===
/** Where the Android ONNX wrappers read a model from. */
module ModelFiles {

  const AssetPrefix := "assets/"

  datatype ModelSource = Asset(name: string) | FilePath(path: string)

  /** A path starting with "assets/" names a packaged asset (prefix removed); any other path is a file. */
  function SourceOf(path: string): (src: ModelSource)
    ensures src.Asset? <==> AssetPrefix <= path
    ensures src.Asset? ==> AssetPrefix + src.name == path
    ensures src.FilePath? ==> src.path == path
  {
    if AssetPrefix <= path then Asset(path[|AssetPrefix|..]) else FilePath(path)
  }
}

=== FILE: Numeric.dfy ===
/** Fixed-width integer types of the two platforms, as subsets of the unbounded integers. */
module Numeric {

  type byte = b: int | 0 <= b < 0x100
  type int16 = v: int | -0x8000 <= v < 0x8000
  type int32 = v: int | -0x8000_0000 <= v < 0x8000_0000
  type int64 = v: int | -0x8000_0000_0000_0000 <= v < 0x8000_0000_0000_0000

  /** Kotlin's Long.toInt(): keeps the low 32 bits, read as two's complement. */
  function ToInt32(x: int64): (r: int32)
    ensures (r - x) % 0x1_0000_0000 == 0
    ensures -0x8000_0000 <= x < 0x8000_0000 ==> r == x
  {
    var m := x % 0x1_0000_0000;
    if m >= 0x8000_0000 then m - 0x1_0000_0000 else m
  }

  /** Kotlin's Float.toInt() and Swift's Int16(Float) on a finite value: truncation toward zero. */
  function TruncateTowardZero(x: real): (r: int)
    ensures x >= 0.0 ==> r as real <= x < r as real + 1.0
    ensures x < 0.0 ==> r as real - 1.0 < x <= r as real
  {
    if x >= 0.0 then x.Floor else -((-x).Floor)
  }
}

=== FILE: Speech.dfy ===
/**
 * The text front end of text-to-speech shared by both platforms: text
 * normalisation (trim, collapse whitespace runs, lower-case), the
 * character-to-token mapping, and the all-zero PCM of silence.
 */
module Speech {
  import opened Numeric
  import opened Text
  import opened Audio

  const HopLength: nat := 256
  const EmbeddingSize: nat := 256

  /** No ASCII letter is in ws, so lower-casing never moves a character in or out of ws. */
  predicate NoLetters(ws: set<char>) {
    forall c :: c in ws ==> !('A' <= c <= 'Z') && !('a' <= c <= 'z')
  }

  lemma LowerCharKeepsClass(c: char, ws: set<char>)
    requires NoLetters(ws)
    ensures LowerChar(c) in ws <==> c in ws
  {
  }

  /** Trims the characters of trimWs, replaces every run of regexWs by one space, lower-cases. */
  function Prepare(text: string, trimWs: set<char>, regexWs: set<char>): (r: string)
    requires ' ' in regexWs && regexWs <= trimWs && NoLetters(trimWs)
    ensures |r| <= |text|
    ensures IsTrimmed(r, trimWs)
    ensures forall i :: 0 <= i < |r| && r[i] in regexWs ==> r[i] == ' '
    ensures forall i :: 0 <= i < |r| - 1 ==> !(r[i] in regexWs && r[i + 1] in regexWs)
    ensures forall i :: 0 <= i < |r| ==> !IsUpper(r[i])
  {
    var c := Collapse(Trim(text, trimWs), regexWs);
    LowerKeepsClasses(c, trimWs);
    LowerKeepsClasses(c, regexWs);
    Lower(c)
  }

  lemma LowerKeepsClasses(s: string, ws: set<char>)
    requires NoLetters(ws)
    ensures forall i :: 0 <= i < |s| ==> (Lower(s)[i] in ws <==> s[i] in ws)
  {
    forall i | 0 <= i < |s|
      ensures Lower(s)[i] in ws <==> s[i] in ws
    {
      LowerCharKeepsClass(s[i], ws);
    }
  }

  lemma {:induction false} LowerWithout(s: string, ws: set<char>)
    requires NoLetters(ws)
    ensures Without(Lower(s), ws) == Lower(Without(s, ws))
  {
    if s != [] {
      var x, t := s[0], s[1..];
      assert s == [x] + t;
      LowerConcat([x], t);
      WithoutConcat(Lower([x]), Lower(t), ws);
      LowerWithout(t, ws);
      WithoutConcat([x], t, ws);
      LowerConcat(Without([x], ws), Without(t, ws));
      LowerCharKeepsClass(x, ws);
      WithoutSingle(x, ws);
      WithoutSingle(LowerChar(x), ws);
      assert Lower([x]) == [LowerChar(x)];
    }
  }

  lemma LowerConcat(a: string, b: string)
    ensures Lower(a + b) == Lower(a) + Lower(b)
  {
  }

  lemma WithoutSingle(c: char, ws: set<char>)
    ensures Without([c], ws) == if c in ws then [] else [c]
  {
    assert [c][1..] == [];
  }

  /** Apart from whitespace, the prepared text is the trimmed text lower-cased, character for character. */
  lemma PrepareKeepsVisible(text: string, trimWs: set<char>, regexWs: set<char>)
    requires ' ' in regexWs && regexWs <= trimWs && NoLetters(trimWs)
    ensures Without(Prepare(text, trimWs, regexWs), regexWs) == Lower(Without(Trim(text, trimWs), regexWs))
  {
    var t := Trim(text, trimWs);
    CollapseKeepsVisible(t, regexWs);
    LowerWithout(Collapse(t, regexWs), regexWs);
  }

  /**
   * Between two already trimmed pieces, a whitespace run of any length
   * becomes exactly one space: preparation works piece by piece.
   */
  lemma PrepareInnerRun(x: string, w: string, y: string, trimWs: set<char>, regexWs: set<char>)
    requires ' ' in regexWs && regexWs <= trimWs && NoLetters(trimWs)
    requires x != [] && IsTrimmed(x, trimWs)
    requires w != [] && IsBlank(w, regexWs)
    requires y != [] && IsTrimmed(y, trimWs)
    ensures Prepare(x + w + y, trimWs, regexWs) == Prepare(x, trimWs, regexWs) + " " + Prepare(y, trimWs, regexWs)
  {
    TrimmedJoin(x, w, y, trimWs);
    TrimOfTrimmed(x + w + y, trimWs);
    TrimOfTrimmed(x, trimWs);
    TrimOfTrimmed(y, trimWs);
    CollapseInnerRun(x, w, y, regexWs);
    LowerJoin(Collapse(x, regexWs), Collapse(y, regexWs));
  }

  lemma TrimmedJoin(x: string, w: string, y: string, ws: set<char>)
    requires x != [] && IsTrimmed(x, ws) && y != [] && IsTrimmed(y, ws)
    ensures IsTrimmed(x + w + y, ws)
  {
    var s := x + w + y;
    assert s[0] == x[0] && s[|s| - 1] == y[|y| - 1];
  }

  lemma LowerJoin(a: string, b: string)
    ensures Lower(a + " " + b) == Lower(a) + " " + Lower(b)
  {
    LowerConcat(a + " ", b);
    LowerConcat(a, " ");
    assert Lower(" ") == " ";
  }

  lemma LowerOfLower(s: string)
    requires forall i :: 0 <= i < |s| ==> !IsUpper(s[i])
    ensures Lower(s) == s
  {
  }

  /** Preparing prepared text changes nothing. */
  lemma PrepareIdempotent(text: string, trimWs: set<char>, regexWs: set<char>)
    requires ' ' in regexWs && regexWs <= trimWs && NoLetters(trimWs)
    ensures Prepare(Prepare(text, trimWs, regexWs), trimWs, regexWs) == Prepare(text, trimWs, regexWs)
  {
    var p := Prepare(text, trimWs, regexWs);
    TrimOfTrimmed(p, trimWs);
    CollapseFixpoint(p, regexWs);
    LowerOfLower(p);
  }

  /** One id per character: the vocabulary entry of the one-character string, or 0 when there is none. */
  function TokenIds(text: string, vocab: map<string, int64>): (ids: seq<int64>)
    ensures |ids| == |text|
    ensures forall i :: 0 <= i < |text| && [text[i]] !in vocab ==> ids[i] == 0
    ensures forall i :: 0 <= i < |text| && [text[i]] in vocab ==> ids[i] == vocab[[text[i]]]
  {
    seq(|text|, i requires 0 <= i < |text| => if [text[i]] in vocab then vocab[[text[i]]] else 0)
  }

  /** With the empty vocabulary every id is 0. */
  lemma EmptyVocabularyTokens(text: string)
    ensures forall i :: 0 <= i < |text| ==> TokenIds(text, map[])[i] == 0
  {
  }

  /** n samples of silence. */
  function Zeros(n: nat): (xs: seq<real>)
    ensures |xs| == n && forall i :: 0 <= i < n ==> xs[i] == 0.0
  {
    seq(n, _ => 0.0)
  }

  /** n zero bytes. */
  function ZeroBytes(n: nat): (bs: seq<byte>)
    ensures |bs| == n && forall i :: 0 <= i < n ==> bs[i] == 0
  {
    seq(n, _ => 0)
  }

  /** Silence encodes to zero bytes, two per sample. */
  lemma SilencePcm(n: nat)
    ensures PcmOf(Zeros(n)) == ZeroBytes(2 * n)
  {
    var q := Quantized(Zeros(n));
    var pcm := Encode(q);
    ZeroSample();
    forall j | 0 <= j < 2 * n
      ensures pcm[j] == 0
    {
      assert q[j / 2] == 0;
      EncodeAt(q, j / 2);
    }
  }

  lemma ZeroSample()
    ensures ToPcm16(0.0) == 0 && LowByte(0) == 0 && HighByte(0) == 0
  {
  }
}

=== FILE: SttAndroid.dfy ===
/**
 * The Android speech-to-text wrapper (ParakeetNative.kt): an ONNX session and
 * a loaded flag; transcription converts 16-bit PCM to normalised samples,
 * runs the model (an oracle here) and decodes the token ids it returns.
 */
module SttAndroid {
  import opened Wrappers
  import opened Numeric
  import opened Text
  import opened Audio
  import opened Errors
  import opened ModelFiles
  import opened Tokens

  const Unk := "<unk>"
  const Pad := "<pad>"
  const TranscriptionFailed := "Transcription failed: "

  /** The vocabulary this version ships: empty. */
  function LoadVocabulary(): map<int32, string> {
    map[]
  }

  /** The word for an id: its vocabulary entry, looked up at the id's low 32 bits, or "<unk>". */
  function WordOf(id: int64, vocab: map<int32, string>): string {
    if ToInt32(id) in vocab then vocab[ToInt32(id)] else Unk
  }

  /** The words of a run of ids, in order, with "<pad>" dropped. */
  function KeptWords(ids: seq<int64>, vocab: map<int32, string>): (words: seq<string>)
    ensures |words| <= |ids|
    ensures forall k :: 0 <= k < |words| ==> words[k] != Pad
    ensures forall k :: 0 <= k < |words| ==> words[k] == Unk || words[k] in vocab.Values
  {
    if ids == [] then []
    else
      var w := WordOf(ids[|ids| - 1], vocab);
      KeptWords(ids[..|ids| - 1], vocab) + (if w == Pad then [] else [w])
  }

  /** The words decoded from the ids before the first 0. */
  function DecodedWords(ids: seq<int64>, vocab: map<int32, string>): seq<string> {
    KeptWords(UntilEos(ids), vocab)
  }

  /** The transcript: the decoded words joined by single spaces, then trimmed. */
  function DecodedText(ids: seq<int64>, vocab: map<int32, string>): (text: string)
    ensures IsTrimmed(text, KotlinWhitespace)
  {
    Trim(Join(DecodedWords(ids, vocab), " "), KotlinWhitespace)
  }

  /** Token decoding in one pass with an early exit at the first 0. */
  method DecodeTokens(tokenIds: seq<int64>, vocab: map<int32, string>) returns (text: string)
    ensures text == DecodedText(tokenIds, vocab)
  {
    var words: seq<string> := [];
    var i := 0;
    while i < |tokenIds|
      invariant 0 <= i <= |tokenIds|
      invariant NoEos(tokenIds[..i])
      invariant words == KeptWords(tokenIds[..i], vocab)
    {
      var tokenId := tokenIds[i];
      if tokenId == 0 {
        break;
      }
      var word := if ToInt32(tokenId) in vocab then vocab[ToInt32(tokenId)] else Unk;
      if word != Pad {
        words := words + [word];
      }
      assert tokenIds[..i + 1][..i] == tokenIds[..i];
      i := i + 1;
    }
    UntilEosAt(tokenIds, i);
    text := Trim(Join(words, " "), KotlinWhitespace);
  }

  /** No id at or after the first 0 contributes to the transcript. */
  lemma DecodeStopsAtEos(prefix: seq<int64>, suffix: seq<int64>, vocab: map<int32, string>)
    ensures DecodedText(prefix + [Eos] + suffix, vocab) == DecodedText(prefix, vocab)
  {
    UntilEosIgnoresTail(prefix, suffix);
  }

  /** Empty input, or input that starts with 0, decodes to the empty transcript. */
  lemma DecodeNothing(ids: seq<int64>, vocab: map<int32, string>)
    requires ids == [] || ids[0] == Eos
    ensures DecodedText(ids, vocab) == ""
  {
  }

  /** Unknown ids are not skipped: with no "<pad>" in the vocabulary every id before the first 0 yields one word. */
  lemma {:induction false} OneWordPerId(ids: seq<int64>, vocab: map<int32, string>)
    requires Pad !in vocab.Values
    ensures |KeptWords(ids, vocab)| == |ids|
  {
    if ids != [] {
      OneWordPerId(ids[..|ids| - 1], vocab);
      var id := ids[|ids| - 1];
      if ToInt32(id) in vocab {
        assert vocab[ToInt32(id)] in vocab.Values;
      }
    }
  }

  /** With the empty vocabulary every id becomes "<unk>". */
  lemma {:induction false} EmptyVocabularyWords(ids: seq<int64>)
    ensures KeptWords(ids, map[]) == seq(|ids|, _ => Unk)
  {
    if ids != [] {
      EmptyVocabularyWords(ids[..|ids| - 1]);
    }
  }

  /** With the shipped vocabulary the transcript is "<unk>" once per id before the first 0, space separated. */
  lemma ShippedTranscript(ids: seq<int64>)
    ensures DecodedText(ids, LoadVocabulary()) == Join(seq(|UntilEos(ids)|, _ => Unk), " ")
  {
    var n := |UntilEos(ids)|;
    var words: seq<string> := seq(n, _ => Unk);
    EmptyVocabularyWords(UntilEos(ids));
    if n > 0 {
      JoinEnds(words, " ");
    }
    TrimOfTrimmed(Join(words, " "), KotlinWhitespace);
  }

  /** PCM bytes to normalised samples, written one by one into a fresh float array. */
  method PcmBytesToFloatArray(pcmBytes: seq<byte>) returns (floatArray: array<real>)
    ensures floatArray[..] == NormalizedSamples(pcmBytes)
  {
    floatArray := new real[|pcmBytes| / 2];
    for i := 0 to floatArray.Length
      invariant forall j :: 0 <= j < i ==> floatArray[j] == Normalize(SampleAt(pcmBytes, j))
    {
      floatArray[i] := Normalize(FromLittleEndian(pcmBytes[2 * i], pcmBytes[2 * i + 1]));
    }
  }

  /**
   * What transcribe answers: refused with "Model not loaded" unless the
   * wrapper is ready (loaded with a session); otherwise the decoded transcript
   * of the ids inference returns for the normalised samples, or "Transcription
   * failed: " and the message when inference fails. It never throws an Error.
   */
  function Transcription(ready: bool, audioData: seq<byte>, run: seq<real> -> Result<seq<int64>, string>)
    : (r: Result<string, KotlinThrowable>)
    ensures !ready <==> r == Failure(IllegalStateException(ModelNotLoaded))
    ensures r.Failure? ==> !r.error.IsError()
    ensures r.Success? ==> run(NormalizedSamples(audioData)).Success? && IsTrimmed(r.value, KotlinWhitespace)
    ensures ready && run(NormalizedSamples(audioData)).Success? ==>
              r == Success(DecodedText(run(NormalizedSamples(audioData)).value, LoadVocabulary()))
    ensures ready && run(NormalizedSamples(audioData)).Failure? ==>
              r == Failure(RuntimeException(TranscriptionFailed + run(NormalizedSamples(audioData)).error))
  {
    if !ready then Failure(IllegalStateException(ModelNotLoaded))
    else
      match run(NormalizedSamples(audioData))
      case Failure(message) => Failure(RuntimeException(TranscriptionFailed + message))
      case Success(ids) => Success(DecodedText(ids, LoadVocabulary()))
  }

  class ParakeetNative {
    var isModelLoaded: bool
    /** Whether an ONNX session is held (the session is not null). */
    var hasSession: bool

    /** A session is held exactly while the wrapper is loaded. */
    predicate Valid()
      reads this
    {
      hasSession == isModelLoaded
    }

    constructor ()
      ensures Valid() && !isModelLoaded && !hasSession
    {
      isModelLoaded := false;
      hasSession := false;
    }

    /**
     * Reads the model from the packaged assets or the file system and opens a
     * session on it; openSession says what either step throws, if anything.
     * Success installs the session and sets the flag. An exception answers
     * false; an Error (the OutOfMemoryError of `readBytes()` on a model larger
     * than the heap) is not caught and propagates. A failure changes nothing.
     */
    method LoadModel(modelPath: string, openSession: ModelSource -> Option<KotlinThrowable>)
      returns (r: Result<bool, KotlinThrowable>)
      requires Valid()
      modifies this
      ensures Valid()
      ensures openSession(SourceOf(modelPath)) == None ==> r == Success(true) && isModelLoaded && hasSession
      ensures openSession(SourceOf(modelPath)).Some? ==> unchanged(this)
      ensures openSession(SourceOf(modelPath)).Some? && !openSession(SourceOf(modelPath)).value.IsError() ==>
                r == Success(false)
      ensures openSession(SourceOf(modelPath)).Some? && openSession(SourceOf(modelPath)).value.IsError() ==>
                r == Failure(openSession(SourceOf(modelPath)).value)
    {
      var source := SourceOf(modelPath);
      match openSession(source) {
        case Some(e) =>
          if e.IsError() {
            return Failure(e);
          }
          return Success(false);
        case None =>
      }
      hasSession := true;
      isModelLoaded := true;
      r := Success(true);
    }

    /** What transcription answers, given whether the wrapper is ready (loaded with a session). */
    method Transcribe(audioData: seq<byte>, run: seq<real> -> Result<seq<int64>, string>)
      returns (r: Result<string, KotlinThrowable>)
      ensures r == Transcription(isModelLoaded && hasSession, audioData, run)
    {
      if !isModelLoaded || !hasSession {
        return Failure(IllegalStateException(ModelNotLoaded));
      }
      var audioFloats := PcmBytesToFloatArray(audioData);
      var outputs := run(audioFloats[..]);
      if outputs.Failure? {
        return Failure(RuntimeException(TranscriptionFailed + outputs.error));
      }
      var transcript := DecodeTokens(outputs.value, LoadVocabulary());
      r := Success(transcript);
    }

    /**
     * Closes the session, if any, and clears it and the flag. A close that
     * throws propagates (threw) and leaves everything as it was; with no
     * session nothing is closed, so a second unload never throws.
     */
    method Unload(closeThrows: bool) returns (threw: bool)
      requires Valid()
      modifies this
      ensures Valid()
      ensures threw == (old(hasSession) && closeThrows)
      ensures threw ==> unchanged(this)
      ensures !threw ==> !isModelLoaded && !hasSession
    {
      if hasSession && closeThrows {
        return true;
      }
      hasSession := false;
      isModelLoaded := false;
      threw := false;
    }

    function IsLoaded(): bool
      reads this
    {
      isModelLoaded
    }
  }
}

=== FILE: SttIos.dfy ===
/**
 * The iOS speech-to-text wrapper (ParakeetNative.swift): a loaded flag and a
 * model path; transcription converts the audio but answers a fixed
 * placeholder, and the token decoder skips ids it does not know.
 */
module SttIos {
  import opened Wrappers
  import opened Numeric
  import opened Text
  import opened Audio
  import opened Errors
  import opened Tokens

  const Domain := "ParakeetNative"
  const Placeholder := "Transcription placeholder"
  const Pad := "<pad>"

  /** The vocabulary this version ships: empty. */
  function LoadVocabulary(): map<int, string> {
    map[]
  }

  /** The words of a run of ids, in order: ids missing from the vocabulary and "<pad>" words are skipped. */
  function KeptWords(ids: seq<int64>, vocab: map<int, string>): (words: seq<string>)
    ensures |words| <= |ids|
    ensures forall k :: 0 <= k < |words| ==> words[k] != Pad && words[k] in vocab.Values
  {
    if ids == [] then []
    else
      var id := ids[|ids| - 1];
      KeptWords(ids[..|ids| - 1], vocab) + (if id in vocab && vocab[id] != Pad then [vocab[id]] else [])
  }

  /** The transcript: the words decoded before the first 0, joined by spaces, trimmed of spaces and tabs. */
  function DecodedText(ids: seq<int64>, vocab: map<int, string>): (text: string)
    ensures IsTrimmed(text, SwiftWhitespaces)
  {
    Trim(Join(KeptWords(UntilEos(ids), vocab), " "), SwiftWhitespaces)
  }

  method DecodeTokens(tokenIds: seq<int64>, vocab: map<int, string>) returns (text: string)
    ensures text == DecodedText(tokenIds, vocab)
  {
    var words: seq<string> := [];
    var i := 0;
    while i < |tokenIds|
      invariant 0 <= i <= |tokenIds|
      invariant NoEos(tokenIds[..i])
      invariant words == KeptWords(tokenIds[..i], vocab)
    {
      var tokenId := tokenIds[i];
      if tokenId == 0 {
        break;
      }
      if tokenId in vocab && vocab[tokenId] != Pad {
        words := words + [vocab[tokenId]];
      }
      assert tokenIds[..i + 1][..i] == tokenIds[..i];
      i := i + 1;
    }
    UntilEosAt(tokenIds, i);
    text := Trim(Join(words, " "), SwiftWhitespaces);
  }

  /** No id at or after the first 0 contributes to the transcript. */
  lemma DecodeStopsAtEos(prefix: seq<int64>, suffix: seq<int64>, vocab: map<int, string>)
    ensures DecodedText(prefix + [Eos] + suffix, vocab) == DecodedText(prefix, vocab)
  {
    UntilEosIgnoresTail(prefix, suffix);
  }

  /** Unknown ids are skipped: with the shipped (empty) vocabulary every transcript is empty. */
  lemma ShippedTranscript(ids: seq<int64>)
    ensures DecodedText(ids, LoadVocabulary()) == ""
  {
  }

  /** PCM data to normalised samples, in a zero-filled array overwritten index by index. */
  method PcmDataToFloatArray(data: seq<byte>) returns (floats: array<real>)
    ensures floats[..] == NormalizedSamples(data)
  {
    floats := new real[|data| / 2](_ => 0.0);
    var count := |data| / 2;
    for i := 0 to count
      invariant forall j :: 0 <= j < i ==> floats[j] == Normalize(SampleAt(data, j))
    {
      floats[i] := Normalize(SampleAt(data, i));
    }
  }

  /** What transcribe answers: an NSError with code 1 when unloaded, otherwise the placeholder, whatever the audio. */
  function Transcription(loaded: bool): (r: Result<string, NSError>)
    ensures !loaded <==> r.Failure?
    ensures r.Failure? ==> r.error == NSError(Domain, 1, ModelNotLoaded)
    ensures r.Success? ==> r.value == Placeholder && IsTrimmed(r.value, SwiftWhitespaces)
  {
    if !loaded then Failure(NSError(Domain, 1, ModelNotLoaded)) else Success(Placeholder)
  }

  class ParakeetNative {
    var isModelLoaded: bool
    var modelPath: Option<string>

    constructor ()
      ensures !isModelLoaded && modelPath == None
    {
      isModelLoaded := false;
      modelPath := None;
    }

    /** A missing file answers false and changes nothing; otherwise the path is recorded and the wrapper loaded. */
    method LoadModel(modelPath: string, fileExists: string -> bool) returns (ok: bool)
      modifies this
      ensures ok == fileExists(modelPath)
      ensures !ok ==> unchanged(this)
      ensures ok ==> isModelLoaded && this.modelPath == Some(modelPath)
    {
      if !fileExists(modelPath) {
        return false;
      }
      this.modelPath := Some(modelPath);
      isModelLoaded := true;
      ok := true;
    }

    /** Unloaded: an NSError with code 1. Loaded: the placeholder, whatever the audio. */
    method Transcribe(audioData: seq<byte>) returns (r: Result<string, NSError>)
      ensures r == Transcription(isModelLoaded)
    {
      if !isModelLoaded {
        return Failure(NSError(Domain, 1, ModelNotLoaded));
      }
      var audioFloats := PcmDataToFloatArray(audioData);
      r := Success(Placeholder);
    }

    /** Unconditional: the flag and the path are cleared. */
    method Unload()
      modifies this
      ensures !isModelLoaded && modelPath == None
    {
      isModelLoaded := false;
      modelPath := None;
    }

    function IsLoaded(): bool
      reads this
    {
      isModelLoaded
    }
  }
}

=== FILE: Text.dfy ===
/**
 * Character-level string operations shared by the wrappers: the whitespace
 * classes of the two platforms (restricted to ASCII), trimming, lower-casing,
 * removal of characters, collapsing of whitespace runs, splitting on a set of
 * separators and joining with a separator.
 */
module Text {

  /** Kotlin's Char.isWhitespace over ASCII (used by trim() and isNotBlank()). */
  const KotlinWhitespace: set<char> :=
    {'\t', '\n', '\U{B}', '\U{C}', '\r', '\U{1C}', '\U{1D}', '\U{1E}', '\U{1F}', ' '}
  /** The class \s of Java regular expressions. */
  const JavaRegexSpace: set<char> := {' ', '\t', '\n', '\U{B}', '\U{C}', '\r'}
  /** Foundation's CharacterSet.whitespaces over ASCII. */
  const SwiftWhitespaces: set<char> := {' ', '\t'}
  /** Foundation's CharacterSet.whitespacesAndNewlines over ASCII. */
  const SwiftWhitespacesAndNewlines: set<char> := {' ', '\t', '\n', '\U{B}', '\U{C}', '\r'}
  /** The class \s of ICU regular expressions (NSRegularExpression) over ASCII. */
  const IcuRegexSpace: set<char> := {' ', '\t', '\n', '\U{C}', '\r'}
  /** Sentence-terminal punctuation used by text-to-speech chunking. */
  const Terminators: set<char> := {'.', '!', '?'}

  predicate IsBlank(s: string, ws: set<char>) {
    forall i :: 0 <= i < |s| ==> s[i] in ws
  }

  /** Neither end of s is in ws. */
  predicate IsTrimmed(s: string, ws: set<char>) {
    s == [] || (s[0] !in ws && s[|s| - 1] !in ws)
  }

  /** Number of leading characters of s in ws. */
  function LeadingCount(s: string, ws: set<char>): (k: nat)
    ensures k <= |s|
    ensures IsBlank(s[..k], ws)
    ensures k == |s| || s[k] !in ws
  {
    if s != [] && s[0] in ws then
      var k := 1 + LeadingCount(s[1..], ws);
      assert s[..k] == [s[0]] + s[1..][..k - 1];
      k
    else 0
  }

  /** Number of trailing characters of s in ws. */
  function TrailingCount(s: string, ws: set<char>): (k: nat)
    ensures k <= |s|
    ensures IsBlank(s[|s| - k..], ws)
    ensures k == |s| || s[|s| - k - 1] !in ws
  {
    if s != [] && s[|s| - 1] in ws then
      var k := TrailingCount(s[..|s| - 1], ws);
      TrailingStep(s, k, ws);
      k + 1
    else 0
  }

  /** A blank suffix of s minus its last character, extended by a blank last character. */
  lemma TrailingStep(s: string, k: nat, ws: set<char>)
    requires k < |s| && s[|s| - 1] in ws
    requires IsBlank(s[..|s| - 1][|s| - 1 - k..], ws)
    requires k == |s| - 1 || s[..|s| - 1][|s| - 1 - k - 1] !in ws
    ensures IsBlank(s[|s| - (k + 1)..], ws)
    ensures k + 1 == |s| || s[|s| - (k + 1) - 1] !in ws
  {
    assert s[|s| - (k + 1)..] == s[..|s| - 1][|s| - 1 - k..] + [s[|s| - 1]];
  }

  /** Drops the leading characters of ws. */
  function TrimStart(s: string, ws: set<char>): (r: string)
    ensures |r| <= |s| && r == s[|s| - |r|..]
    ensures IsBlank(s[..|s| - |r|], ws)
    ensures r == [] || r[0] !in ws
  {
    s[LeadingCount(s, ws)..]
  }

  /** Drops the trailing characters of ws. */
  function TrimEnd(s: string, ws: set<char>): (r: string)
    ensures |r| <= |s| && r == s[..|r|]
    ensures IsBlank(s[|r|..], ws)
    ensures r == [] || r[|r| - 1] !in ws
  {
    s[..|s| - TrailingCount(s, ws)]
  }

  /** TrimStart removes one leading character of ws at a time. */
  lemma TrimStartStep(s: string, ws: set<char>)
    ensures TrimStart(s, ws) == if s != [] && s[0] in ws then TrimStart(s[1..], ws) else s
  {
  }

  /** Removes every leading and trailing character of ws: the result is the slice of s between two blank ends. */
  function Trim(s: string, ws: set<char>): (r: string)
    ensures IsTrimmed(r, ws)
    ensures LeadingCount(s, ws) + |r| <= |s|
    ensures r == s[LeadingCount(s, ws)..LeadingCount(s, ws) + |r|]
    ensures IsBlank(s[..LeadingCount(s, ws)], ws) && IsBlank(s[LeadingCount(s, ws) + |r|..], ws)
  {
    var i := LeadingCount(s, ws);
    var t := s[i..];
    var r := TrimEnd(t, ws);
    assert t[|r|..] == s[i + |r|..];
    assert r == s[i..i + |r|];
    r
  }

  lemma TrimEmptyIffBlank(s: string, ws: set<char>)
    ensures Trim(s, ws) == [] <==> IsBlank(s, ws)
  {
  }

  lemma TrimOfTrimmed(s: string, ws: set<char>)
    requires IsTrimmed(s, ws)
    ensures Trim(s, ws) == s
  {
    assert TrimStart(s, ws) == s;
  }

  predicate IsUpper(c: char) { 'A' <= c <= 'Z' }

  /** ASCII lower-casing of one character. */
  function LowerChar(c: char): (d: char)
    ensures !IsUpper(d)
    ensures !IsUpper(c) ==> d == c
  {
    if IsUpper(c) then (c as int + 32) as char else c
  }

  /** Kotlin's lowercase() and Swift's lowercased() over ASCII. */
  function Lower(s: string): (r: string)
    ensures |r| == |s|
    ensures forall i :: 0 <= i < |r| ==> !IsUpper(r[i])
    ensures forall i :: 0 <= i < |r| ==> r[i] == LowerChar(s[i])
  {
    seq(|s|, i requires 0 <= i < |s| => LowerChar(s[i]))
  }

  /** s with every character of cs removed, the others kept in order. */
  function Without(s: string, cs: set<char>): (r: string)
    ensures |r| <= |s|
    ensures forall i :: 0 <= i < |r| ==> r[i] !in cs
    ensures IsBlank(s, cs) ==> r == []
  {
    if s == [] then []
    else (if s[0] in cs then [] else [s[0]]) + Without(s[1..], cs)
  }

  lemma {:induction false} WithoutConcat(a: string, b: string, cs: set<char>)
    ensures Without(a + b, cs) == Without(a, cs) + Without(b, cs)
  {
    if a == [] {
      assert a + b == b;
    } else {
      assert (a + b)[0] == a[0];
      assert (a + b)[1..] == a[1..] + b;
      WithoutConcat(a[1..], b, cs);
    }
  }

  /** Replaces every maximal run of ws characters by a single space (a regular-expression replace of \s+). */
  function Collapse(s: string, ws: set<char>): (r: string)
    requires ' ' in ws
    ensures |r| <= |s|
    ensures forall i :: 0 <= i < |r| && r[i] in ws ==> r[i] == ' '
    ensures forall i :: 0 <= i < |r| - 1 ==> !(r[i] in ws && r[i + 1] in ws)
    ensures s != [] && s[0] !in ws ==> r != [] && r[0] == s[0]
    ensures s != [] && s[|s| - 1] !in ws ==> r != [] && r[|r| - 1] == s[|s| - 1]
    decreases |s|
  {
    if s == [] then []
    else if s[0] in ws then
      var t := TrimStart(s, ws);
      assert t != [] ==> t[|t| - 1] == s[|s| - 1];
      [' '] + Collapse(t, ws)
    else
      [s[0]] + Collapse(s[1..], ws)
  }

  /** Number of leading ws characters of a blank run followed by a non-ws character (or nothing): the run. */
  lemma {:induction false} LeadingCountOfRun(w: string, y: string, ws: set<char>)
    requires IsBlank(w, ws) && (y == [] || y[0] !in ws)
    ensures LeadingCount(w + y, ws) == |w|
  {
    if w == [] {
      assert w + y == y;
    } else {
      assert (w + y)[0] == w[0];
      assert (w + y)[1..] == w[1..] + y;
      LeadingCountOfRun(w[1..], y, ws);
    }
  }

  lemma Assoc3(a: string, b: string, c: string)
    ensures a + b + c == a + (b + c)
  {
  }

  lemma ConcatParts(a: string, b: string)
    ensures a != [] ==> (a + b)[0] == a[0]
    ensures (a + b)[..|a|] == a && (a + b)[|a|..] == b
  {
  }

  /** A leading whitespace run becomes one space. */
  lemma CollapseRun(w: string, y: string, ws: set<char>)
    requires ' ' in ws
    requires w != [] && IsBlank(w, ws) && (y == [] || y[0] !in ws)
    ensures Collapse(w + y, ws) == [' '] + Collapse(y, ws)
  {
    LeadingCountOfRun(w, y, ws);
    ConcatParts(w, y);
  }

  /** A visible first character is kept as it is. */
  lemma CollapseVisible(c: char, v: string, ws: set<char>)
    requires ' ' in ws && c !in ws
    ensures Collapse([c] + v, ws) == [c] + Collapse(v, ws)
  {
    ConcatParts([c], v);
  }

  lemma CollapseConcatVisible(c: char, v: string, y: string, ws: set<char>)
    requires ' ' in ws && c !in ws
    requires Collapse(v + y, ws) == Collapse(v, ws) + Collapse(y, ws)
    ensures Collapse([c] + v + y, ws) == Collapse([c] + v, ws) + Collapse(y, ws)
  {
    Assoc3([c], v, y);
    CollapseVisible(c, v + y, ws);
    CollapseVisible(c, v, ws);
    Assoc3([c], Collapse(v, ws), Collapse(y, ws));
  }

  lemma CollapseConcatRun(w: string, v: string, y: string, ws: set<char>)
    requires ' ' in ws
    requires w != [] && IsBlank(w, ws) && v != [] && v[0] !in ws
    requires Collapse(v + y, ws) == Collapse(v, ws) + Collapse(y, ws)
    ensures Collapse(w + v + y, ws) == Collapse(w + v, ws) + Collapse(y, ws)
  {
    Assoc3(w, v, y);
    ConcatParts(v, y);
    CollapseRun(w, v + y, ws);
    CollapseRun(w, v, ws);
    Assoc3([' '], Collapse(v, ws), Collapse(y, ws));
  }

  lemma CollapseConcatBlank(w: string, y: string, ws: set<char>)
    requires ' ' in ws
    requires w != [] && IsBlank(w, ws) && (y == [] || y[0] !in ws)
    ensures Collapse(w + y, ws) == Collapse(w, ws) + Collapse(y, ws)
  {
    CollapseRun(w, y, ws);
    CollapseRun(w, [], ws);
    ConcatParts(w, []);
  }

  /** Collapsing distributes over a concatenation that does not join two whitespace runs. */
  lemma {:induction false} CollapseConcat(x: string, y: string, ws: set<char>)
    requires ' ' in ws
    requires x == [] || y == [] || x[|x| - 1] !in ws || y[0] !in ws
    ensures Collapse(x + y, ws) == Collapse(x, ws) + Collapse(y, ws)
    decreases |x|
  {
    if x == [] {
      ConcatParts(x, y);
    } else if x[0] !in ws {
      var v := x[1..];
      ConcatParts([x[0]], v);
      assert x == [x[0]] + v;
      CollapseConcat(v, y, ws);
      CollapseConcatVisible(x[0], v, y, ws);
    } else {
      var k := LeadingCount(x, ws);
      var w, v := x[..k], x[k..];
      assert x == w + v;
      if v == [] {
        CollapseConcatBlank(x, y, ws);
      } else {
        CollapseConcat(v, y, ws);
        CollapseConcatRun(w, v, y, ws);
      }
    }
  }

  /** A whitespace run between two visible characters becomes exactly one space. */
  lemma CollapseInnerRun(x: string, w: string, y: string, ws: set<char>)
    requires ' ' in ws
    requires x != [] && x[|x| - 1] !in ws
    requires w != [] && IsBlank(w, ws)
    requires y == [] || y[0] !in ws
    ensures Collapse(x + w + y, ws) == Collapse(x, ws) + " " + Collapse(y, ws)
  {
    Assoc3(x, w, y);
    CollapseConcat(x, w + y, ws);
    CollapseRun(w, y, ws);
    Assoc3(Collapse(x, ws), " ", Collapse(y, ws));
  }

  /** Collapsing changes only whitespace: the other characters stay, in order. */
  lemma {:induction false} CollapseKeepsVisible(s: string, ws: set<char>)
    requires ' ' in ws
    ensures Without(Collapse(s, ws), ws) == Without(s, ws)
    decreases |s|
  {
    if s != [] {
      if s[0] in ws {
        var t := TrimStart(s, ws);
        var k := |s| - |t|;
        assert s == s[..k] + t;
        WithoutConcat(s[..k], t, ws);
        WithoutConcat([' '], Collapse(t, ws), ws);
        CollapseKeepsVisible(t, ws);
      } else {
        assert s == [s[0]] + s[1..];
        WithoutConcat([s[0]], Collapse(s[1..], ws), ws);
        CollapseKeepsVisible(s[1..], ws);
      }
    }
  }

  /** A string whose only whitespace is single spaces is left alone by collapsing. */
  lemma {:induction false} CollapseFixpoint(s: string, ws: set<char>)
    requires ' ' in ws
    requires forall i :: 0 <= i < |s| && s[i] in ws ==> s[i] == ' '
    requires forall i :: 0 <= i < |s| - 1 ==> !(s[i] in ws && s[i + 1] in ws)
    ensures Collapse(s, ws) == s
    decreases |s|
  {
    if s != [] {
      if s[0] in ws {
        assert TrimStart(s, ws) == s[1..] by {
          assert s[1..] == [] || s[1] !in ws;
        }
      }
      CollapseFixpoint(s[1..], ws);
    }
  }

  /** Splits s at every character of seps (Foundation's components(separatedBy:)); empty segments are kept. */
  function Split(s: string, seps: set<char>): (r: seq<string>)
    ensures |r| == |s| - |Without(s, seps)| + 1
    ensures forall i, j :: 0 <= i < |r| && 0 <= j < |r[i]| ==> r[i][j] !in seps
  {
    if s == [] then [[]]
    else
      var rest := Split(s[1..], seps);
      if s[0] in seps then [[]] + rest
      else [[s[0]] + rest[0]] + rest[1..]
  }

  /** Kotlin's joinToString(sep) and Swift's joined(separator:). */
  function Join(words: seq<string>, sep: string): (r: string)
  {
    if words == [] then []
    else if |words| == 1 then words[0]
    else words[0] + sep + Join(words[1..], sep)
  }

  lemma JoinCons(w: string, words: seq<string>, sep: string)
    requires words != []
    ensures Join([w] + words, sep) == w + sep + Join(words, sep)
  {
    assert ([w] + words)[1..] == words;
  }

  lemma JoinPrepend(x: char, words: seq<string>, sep: string)
    requires words != []
    ensures Join([[x] + words[0]] + words[1..], sep) == [x] + Join(words, sep)
  {
    if |words| > 1 {
      JoinCons([x] + words[0], words[1..], sep);
      JoinCons(words[0], words[1..], sep);
      assert [words[0]] + words[1..] == words;
    }
  }

  /** A join starts with the first word's first character and ends with the last word's last character. */
  lemma {:induction false} JoinEnds(words: seq<string>, sep: string)
    requires words != [] && forall k :: 0 <= k < |words| ==> words[k] != []
    ensures var j := Join(words, sep);
            j != [] && j[0] == words[0][0] && j[|j| - 1] == words[|words| - 1][|words[|words| - 1]| - 1]
  {
    if |words| > 1 {
      JoinEnds(words[1..], sep);
    }
  }

  /** Splitting at a single separator and joining with it gives the string back. */
  lemma {:induction false} JoinSplit(s: string, c: char)
    ensures Join(Split(s, {c}), [c]) == s
  {
    if s != [] {
      var rest := Split(s[1..], {c});
      JoinSplit(s[1..], c);
      assert s == [s[0]] + s[1..];
      if s[0] == c {
        assert Split(s, {c}) == [[]] + rest;
        JoinCons([], rest, [c]);
      } else {
        assert Split(s, {c}) == [[s[0]] + rest[0]] + rest[1..];
        JoinPrepend(s[0], rest, [c]);
      }
    }
  }

  lemma {:induction false} SplitWithoutSeparator(w: string, seps: set<char>)
    requires forall j :: 0 <= j < |w| ==> w[j] !in seps
    ensures Split(w, seps) == [w]
  {
    if w != [] {
      SplitWithoutSeparator(w[1..], seps);
      assert [w[0]] + w[1..] == w;
    }
  }

  lemma {:induction false} SplitAfterWord(w: string, c: char, t: string, seps: set<char>)
    requires forall j :: 0 <= j < |w| ==> w[j] !in seps
    requires c in seps
    ensures Split(w + [c] + t, seps) == [w] + Split(t, seps)
  {
    if w == [] {
      assert [c] + t == w + [c] + t;
      assert ([c] + t)[1..] == t;
    } else {
      assert (w + [c] + t)[1..] == w[1..] + [c] + t;
      SplitAfterWord(w[1..], c, t, seps);
      assert [w[0]] + w[1..] == w;
    }
  }

  /** Joining words free of the separator and splitting again gives the words back. */
  lemma {:induction false} SplitJoin(words: seq<string>, c: char)
    requires words != []
    requires forall i, j :: 0 <= i < |words| && 0 <= j < |words[i]| ==> words[i][j] != c
    ensures Split(Join(words, [c]), {c}) == words
  {
    if |words| == 1 {
      SplitWithoutSeparator(words[0], {c});
    } else {
      SplitJoin(words[1..], c);
      SplitAfterWord(words[0], c, Join(words[1..], [c]), {c});
      assert [words[0]] + words[1..] == words;
    }
  }

  /** A string that is not blank under a larger class is not trimmed away. */
  lemma TrimNotEmpty(s: string, trim: set<char>, blank: set<char>)
    requires trim <= blank && !IsBlank(s, blank)
    ensures Trim(s, trim) != []
  {
    TrimEmptyIffBlank(s, trim);
  }

  /** A sentence as streaming synthesises it: closed with a period. */
  predicate EndsWithPeriod(s: string) {
    |s| >= 1 && s[|s| - 1] == '.'
  }

  /**
   * Sentence chunking: the segments that are not blank (measured by blank),
   * each trimmed of trim and closed with a period, in order.
   */
  function SentenceTexts(segments: seq<string>, blank: set<char>, trim: set<char>): (r: seq<string>)
    ensures |r| <= |segments|
    ensures forall i :: 0 <= i < |r| ==> EndsWithPeriod(r[i])
  {
    if segments == [] then []
    else
      var rest := SentenceTexts(segments[1..], blank, trim);
      if IsBlank(segments[0], blank) then rest
      else [Trim(segments[0], trim) + "."] + rest
  }

  /** Chunking a concatenation chunks each part. */
  lemma {:induction false} SentenceTextsAppend(a: seq<string>, b: seq<string>, blank: set<char>, trim: set<char>)
    ensures SentenceTexts(a + b, blank, trim) == SentenceTexts(a, blank, trim) + SentenceTexts(b, blank, trim)
  {
    if a == [] {
      assert a + b == b;
    } else {
      assert (a + b)[0] == a[0];
      assert (a + b)[1..] == a[1..] + b;
      SentenceTextsAppend(a[1..], b, blank, trim);
    }
  }

  /** One segment gives nothing when blank, and otherwise its trimmed text closed with a period. */
  lemma SentenceTextsSingle(s: string, blank: set<char>, trim: set<char>)
    ensures SentenceTexts([s], blank, trim) == if IsBlank(s, blank) then [] else [Trim(s, trim) + "."]
  {
    assert [s][1..] == [];
  }
}

=== FILE: Tokens.dfy ===
/** Token-id sequences as the speech-to-text decoders read them: everything up to the first id 0 (end of sequence). */
module Tokens {
  import opened Numeric

  const Eos: int64 := 0

  predicate NoEos(ids: seq<int64>) {
    forall j :: 0 <= j < |ids| ==> ids[j] != Eos
  }

  /** The ids before the first 0 (all of them when there is none). */
  function UntilEos(ids: seq<int64>): (r: seq<int64>)
    ensures |r| <= |ids| && r == ids[..|r|]
    ensures NoEos(r)
    ensures |r| < |ids| ==> ids[|r|] == Eos
  {
    if ids == [] || ids[0] == Eos then [] else [ids[0]] + UntilEos(ids[1..])
  }

  /** The three properties above pin the prefix down: it ends exactly at the first 0. */
  lemma {:induction false} UntilEosAt(ids: seq<int64>, i: nat)
    requires i <= |ids| && NoEos(ids[..i])
    requires i == |ids| || ids[i] == Eos
    ensures UntilEos(ids) == ids[..i]
  {
    if i > 0 {
      assert ids[..i][0] == ids[0];
      assert ids[1..][..i - 1] == ids[1..i];
      assert forall j :: 0 <= j < i - 1 ==> ids[1..i][j] == ids[..i][j + 1];
      UntilEosAt(ids[1..], i - 1);
      assert ids[..i] == [ids[0]] + ids[1..i];
    }
  }

  /** Nothing after an id 0 is read. */
  lemma UntilEosIgnoresTail(prefix: seq<int64>, suffix: seq<int64>)
    ensures UntilEos(prefix + [Eos] + suffix) == UntilEos(prefix)
  {
    var ids := prefix + [Eos] + suffix;
    var r := UntilEos(prefix);
    assert ids[..|prefix|] == prefix;
    assert r == ids[..|r|];
    UntilEosAt(ids, |r|);
  }
}

=== FILE: TtsAndroid.dfy ===
/**
 * The Android text-to-speech wrapper (KokoroNative.kt): an ONNX session and a
 * loaded flag; synthesis prepares the text, maps it to token ids, runs the
 * model (an oracle that answers the number of mel frames) and turns the
 * placeholder waveform into 16-bit PCM.
 */
module TtsAndroid {
  import opened Wrappers
  import opened Numeric
  import opened Text
  import opened Audio
  import opened Errors
  import opened ModelFiles
  import opened Speech

  const SynthesisFailed := "Speech synthesis failed: "
  const DefaultVoice := "female"
  const DefaultSpeed := 1.0

  /** Trim (Char.isWhitespace), replace each run of regex \s by one space, lower-case. */
  function PrepareText(text: string): (r: string)
    ensures IsTrimmed(r, KotlinWhitespace)
    ensures forall i :: 0 <= i < |r| && r[i] in JavaRegexSpace ==> r[i] == ' '
    ensures forall i :: 0 <= i < |r| - 1 ==> !(r[i] in JavaRegexSpace && r[i + 1] in JavaRegexSpace)
    ensures forall i :: 0 <= i < |r| ==> !IsUpper(r[i])
  {
    Prepare(text, KotlinWhitespace, JavaRegexSpace)
  }

  /** The vocabulary this version ships: empty. */
  function LoadVocabulary(): map<string, int64> {
    map[]
  }

  /** One id per character, appended to a list in a loop. */
  method TextToTokens(text: string, vocab: map<string, int64>) returns (tokens: seq<int64>)
    ensures tokens == TokenIds(text, vocab)
  {
    tokens := [];
    for i := 0 to |text|
      invariant |tokens| == i
      invariant forall j :: 0 <= j < i ==> tokens[j] == TokenIds(text, vocab)[j]
    {
      var token := if [text[i]] in vocab then vocab[[text[i]]] else 0;
      tokens := tokens + [token];
    }
  }

  /** 256 values: all 0.5 for "male", all 0.0 for any other voice. */
  function SpeakerEmbedding(voice: string): (e: seq<real>)
    ensures |e| == EmbeddingSize
    ensures voice == "male" ==> forall i :: 0 <= i < |e| ==> e[i] == 0.5
    ensures voice != "male" ==> forall i :: 0 <= i < |e| ==> e[i] == 0.0
  {
    if voice == "male" then seq(EmbeddingSize, _ => 0.5) else seq(EmbeddingSize, _ => 0.0)
  }

  /** What allocating the waveform array comes to. */
  datatype Waveform =
    | Allocated(audio: seq<real>)
    /** The computed length is negative (NegativeArraySizeException). */
    | NegativeSize(size: int)
    /** Division by a zero speed gives infinity, which converts to Int.MAX_VALUE: too large an array. */
    | OutOfMemory

  /**
   * The placeholder vocoder: an all-zero array of numFrames * 256 / speed
   * samples, truncated toward zero. A zero speed overflows the allocation
   * unless there are no frames (0/0 converts to 0); a negative speed gives a
   * negative length unless the quotient truncates to 0.
   */
  function MelToWaveform(numFrames: nat, speed: real): (w: Waveform)
    ensures w.Allocated? ==> forall i :: 0 <= i < |w.audio| ==> w.audio[i] == 0.0
    ensures numFrames == 0 ==> w == Allocated([])
    ensures speed > 0.0 ==>
              w.Allocated? && |w.audio| as real <= (numFrames * HopLength) as real / speed < |w.audio| as real + 1.0
    ensures speed == 1.0 ==> w == Allocated(Zeros(numFrames * HopLength))
    ensures w.OutOfMemory? <==> speed == 0.0 && numFrames > 0
    ensures w.NegativeSize? <==> speed < 0.0 && (numFrames * HopLength) as real / speed <= -1.0
  {
    if speed == 0.0 then
      if numFrames == 0 then Allocated([]) else OutOfMemory
    else
      var audioLength := TruncateTowardZero((numFrames * HopLength) as real / speed);
      if audioLength >= 0 then Allocated(Zeros(audioLength)) else NegativeSize(audioLength)
  }

  /** Each sample clamped, scaled to 16 bits and written little-endian into a byte array twice its length. */
  method FloatArrayToPcm(audioFloats: seq<real>) returns (pcmData: array<byte>)
    ensures pcmData[..] == PcmOf(audioFloats)
  {
    ghost var pcm := PcmOf(audioFloats);
    pcmData := new byte[|audioFloats| * 2](_ => 0);
    var position := 0;
    for i := 0 to |audioFloats|
      invariant position == 2 * i
      invariant forall k :: 0 <= k < position ==> pcmData[k] == pcm[k]
    {
      var pcmSample := ToPcm16(audioFloats[i]);
      EncodeAt(Quantized(audioFloats), i);
      pcmData[position] := LowByte(pcmSample);
      pcmData[position + 1] := HighByte(pcmSample);
      position := position + 2;
    }
  }

  /** The two inputs synthesis gives the model: the token ids of the prepared text and the speaker embedding. */
  function InferenceInput(text: string, voice: string): (seq<int64>, seq<real>) {
    (TokenIds(PrepareText(text), LoadVocabulary()), SpeakerEmbedding(voice))
  }

  /**
   * The outcome of synthesize, given whether a session is ready, the model
   * (an oracle answering the number of mel frames or a failure message) and
   * the message the runtime gives a negative array size.
   */
  function Synthesis(ready: bool, text: string, speed: real, voice: string,
                     infer: ((seq<int64>, seq<real>)) -> Result<nat, string>,
                     negativeSizeMessage: int -> string): Result<seq<byte>, KotlinThrowable>
  {
    if !ready then Failure(IllegalStateException(ModelNotLoaded))
    else
      match infer(InferenceInput(text, voice))
      case Failure(message) => Failure(RuntimeException(SynthesisFailed + message))
      case Success(numFrames) =>
        match MelToWaveform(numFrames, speed)
        case Allocated(audio) => Success(PcmOf(audio))
        case NegativeSize(size) => Failure(RuntimeException(SynthesisFailed + negativeSizeMessage(size)))
        case OutOfMemory => Failure(OutOfMemoryError)
  }

  /**
   * What synthesize answers: "Model not loaded" exactly when no session is
   * ready, the model's failure wrapped, and otherwise all-zero PCM of even
   * length, 512 bytes per mel frame at speed 1.0. A positive speed always
   * succeeds; OutOfMemoryError, which the handler does not catch, comes
   * exactly from a zero speed with frames.
   */
  lemma SynthesisOutcome(ready: bool, text: string, speed: real, voice: string,
                         infer: ((seq<int64>, seq<real>)) -> Result<nat, string>,
                         negativeSizeMessage: int -> string)
    ensures var r := Synthesis(ready, text, speed, voice, infer, negativeSizeMessage);
            var frames := infer(InferenceInput(text, voice));
            && (!ready <==> r == Failure(IllegalStateException(ModelNotLoaded)))
            && (r.Success? ==> |r.value| % 2 == 0 && forall i :: 0 <= i < |r.value| ==> r.value[i] == 0)
            && (ready && frames.Failure? ==> r == Failure(RuntimeException(SynthesisFailed + frames.error)))
            && (ready && frames.Success? && speed == 1.0 ==> r == Success(ZeroBytes(2 * HopLength * frames.value)))
            && (ready && frames.Success? && speed > 0.0 ==> r.Success?)
            && (r == Failure(OutOfMemoryError) <==> ready && speed == 0.0 && frames.Success? && frames.value > 0)
  {
    var frames := infer(InferenceInput(text, voice));
    if ready && frames.Success? {
      var w := MelToWaveform(frames.value, speed);
      if w.Allocated? {
        assert w.audio == Zeros(|w.audio|);
        SilencePcm(|w.audio|);
      }
    }
  }

  // ---- Sentence chunking ----

  /**
   * Kotlin's split on the regular expression [.!?]\s*: the text is cut at
   * every terminator, and the whitespace right after a terminator belongs to
   * the separator. Empty segments are kept.
   */
  function SplitSentences(text: string): (segments: seq<string>)
    ensures SegmentsOf(text, segments)
    decreases |text|
  {
    if text == [] then [[]]
    else if text[0] in Terminators then
      var t := TrimStart(text[1..], JavaRegexSpace);
      var rest := SplitSentences(t);
      TerminatorSegment(text, t, rest);
      [[]] + rest
    else
      var rest := SplitSentences(text[1..]);
      PlainSegment(text, rest);
      [[text[0]] + rest[0]] + rest[1..]
  }

  /**
   * What a split of text on [.!?]\s* looks like: at least one segment, the
   * first a prefix of text, no terminator inside any segment, and no later
   * segment starting with the whitespace the separator swallows.
   */
  predicate SegmentsOf(text: string, segments: seq<string>) {
    && |segments| >= 1
    && |segments[0]| <= |text| && segments[0] == text[..|segments[0]|]
    && (forall i, j :: 0 <= i < |segments| && 0 <= j < |segments[i]| ==> segments[i][j] !in Terminators)
    && (forall i :: 1 <= i < |segments| && segments[i] != [] ==> segments[i][0] !in JavaRegexSpace)
  }

  lemma TerminatorSegment(text: string, t: string, rest: seq<string>)
    requires SegmentsOf(t, rest)
    requires t == [] || t[0] !in JavaRegexSpace
    ensures SegmentsOf(text, [[]] + rest)
  {
    var r := [[]] + rest;
    assert forall i :: 1 <= i < |r| ==> r[i] == rest[i - 1];
  }

  lemma PlainSegment(text: string, rest: seq<string>)
    requires text != [] && text[0] !in Terminators
    requires SegmentsOf(text[1..], rest)
    ensures SegmentsOf(text, [[text[0]] + rest[0]] + rest[1..])
  {
    var r := [[text[0]] + rest[0]] + rest[1..];
    assert forall i :: 1 <= i < |r| ==> r[i] == rest[i];
    assert r[0] == text[..|r[0]|];
  }

  /** The texts handed to synthesize: non-blank segments, trimmed, each closed with a period. */
  function StreamSentences(text: string): (sentences: seq<string>)
    ensures forall i :: 0 <= i < |sentences| ==> EndsWithPeriod(sentences[i])
  {
    SentenceTexts(SplitSentences(text), KotlinWhitespace, KotlinWhitespace)
  }

  /** a is b with a (possibly empty) prefix of ws characters removed. */
  predicate BlankPrefixOf(a: string, b: string, ws: set<char>) {
    |a| <= |b| && b[|b| - |a|..] == a && IsBlank(b[..|b| - |a|], ws)
  }

  lemma {:induction false} SplitAfterPlain(w: string, t: string, seps: set<char>)
    requires forall j :: 0 <= j < |w| ==> w[j] !in seps
    ensures Split(w + t, seps) == [w + Split(t, seps)[0]] + Split(t, seps)[1..]
  {
    var segs := Split(t, seps);
    if w != [] {
      var rest := Split(w[1..] + t, seps);
      SplitAfterPlain(w[1..], t, seps);
      ConsTail(w, t, segs[0]);
      assert Split(w + t, seps) == [[w[0]] + rest[0]] + rest[1..];
      assert rest[1..] == segs[1..];
    } else {
      assert w + t == t;
      assert w + segs[0] == segs[0];
      assert [segs[0]] + segs[1..] == segs;
    }
  }

  lemma ConsTail(w: string, t: string, x: string)
    requires w != []
    ensures (w + t)[0] == w[0] && (w + t)[1..] == w[1..] + t
    ensures [w[0]] + (w[1..] + x) == w + x
  {
  }

  /** The segments a and b align: same number, same first segment, later ones equal up to a blank prefix. */
  predicate Aligned(a: seq<string>, b: seq<string>) {
    |a| == |b| && |a| >= 1 && a[0] == b[0]
    && forall i :: 1 <= i < |a| ==> BlankPrefixOf(a[i], b[i], JavaRegexSpace)
  }

  lemma AlignedAfterPlain(c: char, a: seq<string>, b: seq<string>)
    requires Aligned(a, b)
    ensures Aligned([[c] + a[0]] + a[1..], [[c] + b[0]] + b[1..])
  {
    var a2 := [[c] + a[0]] + a[1..];
    var b2 := [[c] + b[0]] + b[1..];
    assert forall i :: 1 <= i < |a2| ==> a2[i] == a[i] && b2[i] == b[i];
  }

  lemma AlignedAfterTerminator(w: string, a: seq<string>, b: seq<string>)
    requires Aligned(a, b) && IsBlank(w, JavaRegexSpace)
    ensures Aligned([[]] + a, [[]] + ([w + b[0]] + b[1..]))
  {
    var a2 := [[]] + a;
    var b2 := [[]] + ([w + b[0]] + b[1..]);
    assert b2[1] == w + a2[1];
    assert b2[1][..|w|] == w;
    assert BlankPrefixOf(a2[1], b2[1], JavaRegexSpace);
    assert forall i :: 2 <= i < |a2| ==> a2[i] == a[i - 1] && b2[i] == b[i - 1];
  }

  /** Segment by segment, the regular-expression split is the character split with blank prefixes removed. */
  lemma {:induction false} SplitsAlign(text: string)
    ensures Aligned(SplitSentences(text), Split(text, Terminators))
    decreases |text|
  {
    if text == [] {
    } else if text[0] in Terminators {
      var t := TrimStart(text[1..], JavaRegexSpace);
      var w := text[1..][..|text[1..]| - |t|];
      assert text[1..] == w + t;
      SplitsAlign(t);
      SplitAfterPlain(w, t, Terminators);
      AlignedAfterTerminator(w, SplitSentences(t), Split(t, Terminators));
    } else {
      SplitsAlign(text[1..]);
      AlignedAfterPlain(text[0], SplitSentences(text[1..]), Split(text[1..], Terminators));
    }
  }

  lemma {:induction false} TrimStartBlankPrefix(w: string, a: string, ws: set<char>)
    requires IsBlank(w, ws)
    ensures TrimStart(w + a, ws) == TrimStart(a, ws)
  {
    if w != [] {
      assert (w + a)[1..] == w[1..] + a;
      TrimStartBlankPrefix(w[1..], a, ws);
    } else {
      assert w + a == a;
    }
  }

  /** Removing a blank prefix changes neither blankness nor the trimmed text. */
  lemma BlankPrefixSameSentence(a: string, b: string, narrow: set<char>, wide: set<char>)
    requires narrow <= wide && BlankPrefixOf(a, b, narrow)
    ensures IsBlank(a, wide) <==> IsBlank(b, wide)
    ensures Trim(a, wide) == Trim(b, wide)
  {
    var w := b[..|b| - |a|];
    assert b == w + a;
    assert IsBlank(w, wide);
    TrimStartBlankPrefix(w, a, wide);
    if !IsBlank(a, wide) {
      var k :| 0 <= k < |a| && a[k] !in wide;
      assert b[|w| + k] == a[k];
    }
  }

  lemma {:induction false} SentenceTextsAlign(a: seq<string>, b: seq<string>)
    requires |a| == |b|
    requires forall i :: 0 <= i < |a| ==> a[i] == b[i] || BlankPrefixOf(a[i], b[i], JavaRegexSpace)
    ensures SentenceTexts(a, KotlinWhitespace, KotlinWhitespace) == SentenceTexts(b, KotlinWhitespace, KotlinWhitespace)
  {
    if a != [] {
      SentenceTextsAlign(a[1..], b[1..]);
      if a[0] != b[0] {
        BlankPrefixSameSentence(a[0], b[0], JavaRegexSpace, KotlinWhitespace);
      }
    }
  }

  /** The sentences synthesised are those of a plain split at '.', '!' and '?', blank ones dropped. */
  lemma StreamSentencesByCharacterSplit(text: string)
    ensures StreamSentences(text) == SentenceTexts(Split(text, Terminators), KotlinWhitespace, KotlinWhitespace)
  {
    SplitsAlign(text);
    assert forall i :: 0 <= i < |SplitSentences(text)| ==>
      SplitSentences(text)[i] == Split(text, Terminators)[i] || BlankPrefixOf(SplitSentences(text)[i], Split(text, Terminators)[i], JavaRegexSpace);
    SentenceTextsAlign(SplitSentences(text), Split(text, Terminators));
  }

  /**
   * The first sentence is the text before the first terminator, trimmed and
   * closed with a period, unless it is blank; the sentences of the rest follow.
   */
  lemma StreamSentencesStep(w: string, c: char, t: string)
    requires forall j :: 0 <= j < |w| ==> w[j] !in Terminators
    requires c in Terminators
    ensures StreamSentences(w + [c] + t)
            == (if IsBlank(w, KotlinWhitespace) then [] else [Trim(w, KotlinWhitespace) + "."]) + StreamSentences(t)
  {
    StreamSentencesByCharacterSplit(w + [c] + t);
    StreamSentencesByCharacterSplit(t);
    SplitAfterWord(w, c, t, Terminators);
    SentenceTextsAppend([w], Split(t, Terminators), KotlinWhitespace, KotlinWhitespace);
    SentenceTextsSingle(w, KotlinWhitespace, KotlinWhitespace);
  }

  /** Text without a terminator is one sentence, unless it is blank. */
  lemma StreamSentencesLast(w: string)
    requires forall j :: 0 <= j < |w| ==> w[j] !in Terminators
    ensures StreamSentences(w) == if IsBlank(w, KotlinWhitespace) then [] else [Trim(w, KotlinWhitespace) + "."]
  {
    StreamSentencesByCharacterSplit(w);
    SplitWithoutSeparator(w, Terminators);
    SentenceTextsSingle(w, KotlinWhitespace, KotlinWhitespace);
  }

  /** Puts chunks in front of the chunks of a successful outcome. */
  function Prepend(chunks: seq<seq<byte>>, o: Result<seq<seq<byte>>, KotlinThrowable>): Result<seq<seq<byte>>, KotlinThrowable> {
    if o.Success? then Success(chunks + o.value) else o
  }

  /** How stream synthesis treats one sentence: synthesize at speed 1.0 with voice "female". */
  function SentenceSynthesis(ready: bool, infer: ((seq<int64>, seq<real>)) -> Result<nat, string>,
                             negativeSizeMessage: int -> string): string -> Result<seq<byte>, KotlinThrowable>
  {
    s => Synthesis(ready, s, DefaultSpeed, DefaultVoice, infer, negativeSizeMessage)
  }

  /** Every sentence synthesised in order; the first failure ends the stream with its error. */
  function StreamOutcome(sentences: seq<string>, synth: string -> Result<seq<byte>, KotlinThrowable>)
    : (r: Result<seq<seq<byte>>, KotlinThrowable>)
    ensures sentences == [] ==> r == Success([])
    ensures r.Success? ==> |r.value| == |sentences|
    ensures r.Success? ==> forall i :: 0 <= i < |sentences| ==> synth(sentences[i]) == Success(r.value[i])
  {
    if sentences == [] then Success([])
    else
      match synth(sentences[0])
      case Failure(e) => Failure(e)
      case Success(chunk) =>
        var rest := StreamOutcome(sentences[1..], synth);
        var r := Prepend([chunk], rest);
        assert r.Success? ==> forall i :: 1 <= i < |sentences| ==> r.value[i] == rest.value[i - 1];
        r
  }

  /** One step of the stream: the next sentence's outcome either ends the stream or joins the chunks so far. */
  lemma StreamStep(sentences: seq<string>, i: nat, synth: string -> Result<seq<byte>, KotlinThrowable>,
                   chunks: seq<seq<byte>>)
    requires i < |sentences|
    ensures synth(sentences[i]).Failure? ==>
              Prepend(chunks, StreamOutcome(sentences[i..], synth)) == Failure(synth(sentences[i]).error)
    ensures synth(sentences[i]).Success? ==>
              Prepend(chunks, StreamOutcome(sentences[i..], synth))
              == Prepend(chunks + [synth(sentences[i]).value], StreamOutcome(sentences[i + 1..], synth))
  {
    assert sentences[i..][0] == sentences[i];
    assert sentences[i..][1..] == sentences[i + 1..];
    var rest := StreamOutcome(sentences[i + 1..], synth);
    if synth(sentences[i]).Success? && rest.Success? {
      var chunk := synth(sentences[i]).value;
      assert chunks + ([chunk] + rest.value) == chunks + [chunk] + rest.value;
    }
  }

  lemma StreamStart(sentences: seq<string>, synth: string -> Result<seq<byte>, KotlinThrowable>)
    ensures StreamOutcome(sentences, synth) == Prepend([], StreamOutcome(sentences[0..], synth))
  {
    assert sentences[0..] == sentences;
    var whole := StreamOutcome(sentences, synth);
    if whole.Success? {
      assert [] + whole.value == whole.value;
    }
  }

  lemma StreamEnd(sentences: seq<string>, synth: string -> Result<seq<byte>, KotlinThrowable>, chunks: seq<seq<byte>>)
    ensures Prepend(chunks, StreamOutcome(sentences[|sentences|..], synth)) == Success(chunks)
  {
    assert sentences[|sentences|..] == [];
    assert chunks + [] == chunks;
  }

  /** The stream fails with the error of its first failing sentence. */
  lemma {:induction false} StreamStopsAtFirstFailure(sentences: seq<string>,
                                                     synth: string -> Result<seq<byte>, KotlinThrowable>, k: nat)
    requires k < |sentences|
    requires forall j :: 0 <= j < k ==> synth(sentences[j]).Success?
    requires synth(sentences[k]).Failure?
    ensures StreamOutcome(sentences, synth) == Failure(synth(sentences[k]).error)
  {
    if k > 0 {
      StreamStopsAtFirstFailure(sentences[1..], synth, k - 1);
    }
  }

  /** Without a session the stream throws "Model not loaded" as soon as there is a sentence, and succeeds empty otherwise. */
  lemma StreamUnloaded(sentences: seq<string>, infer: ((seq<int64>, seq<real>)) -> Result<nat, string>,
                       negativeSizeMessage: int -> string)
    ensures StreamOutcome(sentences, SentenceSynthesis(false, infer, negativeSizeMessage))
            == if sentences == [] then Success([]) else Failure(IllegalStateException(ModelNotLoaded))
  {
    if sentences != [] {
      StreamStopsAtFirstFailure(sentences, SentenceSynthesis(false, infer, negativeSizeMessage), 0);
    }
  }

  /** What getModelInfo reports. */
  datatype Info = Info(loaded: bool, sampleRate: int, hopLength: int)

  class KokoroNative {
    var isModelLoaded: bool
    /** Whether an ONNX session is held (the session is not null). */
    var hasSession: bool

    predicate Valid()
      reads this
    {
      hasSession == isModelLoaded
    }

    constructor ()
      ensures Valid() && !isModelLoaded && !hasSession
    {
      isModelLoaded := false;
      hasSession := false;
    }

    /**
     * Success installs a session and sets the flag. An exception from reading
     * the model or opening the session answers false; an Error (the
     * OutOfMemoryError of `readBytes()`) propagates. A failure changes nothing.
     */
    method LoadModel(modelPath: string, openSession: ModelSource -> Option<KotlinThrowable>)
      returns (r: Result<bool, KotlinThrowable>)
      requires Valid()
      modifies this
      ensures Valid()
      ensures openSession(SourceOf(modelPath)) == None ==> r == Success(true) && isModelLoaded && hasSession
      ensures openSession(SourceOf(modelPath)).Some? ==> unchanged(this)
      ensures openSession(SourceOf(modelPath)).Some? && !openSession(SourceOf(modelPath)).value.IsError() ==>
                r == Success(false)
      ensures openSession(SourceOf(modelPath)).Some? && openSession(SourceOf(modelPath)).value.IsError() ==>
                r == Failure(openSession(SourceOf(modelPath)).value)
    {
      var source := SourceOf(modelPath);
      match openSession(source) {
        case Some(e) =>
          if e.IsError() {
            return Failure(e);
          }
          return Success(false);
        case None =>
      }
      hasSession := true;
      isModelLoaded := true;
      r := Success(true);
    }

    method Synthesize(text: string, speed: real, voice: string,
                      infer: ((seq<int64>, seq<real>)) -> Result<nat, string>,
                      negativeSizeMessage: int -> string) returns (r: Result<seq<byte>, KotlinThrowable>)
      ensures r == Synthesis(isModelLoaded && hasSession, text, speed, voice, infer, negativeSizeMessage)
    {
      if !isModelLoaded || !hasSession {
        return Failure(IllegalStateException(ModelNotLoaded));
      }
      var preparedText := PrepareText(text);
      var tokenIds := TextToTokens(preparedText, LoadVocabulary());
      var speakerEmbedding := SpeakerEmbedding(voice);
      var outputs := infer((tokenIds, speakerEmbedding));
      if outputs.Failure? {
        return Failure(RuntimeException(SynthesisFailed + outputs.error));
      }
      match MelToWaveform(outputs.value, speed) {
        case Allocated(audioFloats) =>
          var pcmData := FloatArrayToPcm(audioFloats);
          r := Success(pcmData[..]);
        case NegativeSize(size) =>
          r := Failure(RuntimeException(SynthesisFailed + negativeSizeMessage(size)));
        case OutOfMemory =>
          r := Failure(OutOfMemoryError);
      }
    }

    /** Synthesises every sentence eagerly, in order; the first failure is what the call throws. */
    method SynthesizeStream(text: string,
                            infer: ((seq<int64>, seq<real>)) -> Result<nat, string>,
                            negativeSizeMessage: int -> string) returns (r: Result<seq<seq<byte>>, KotlinThrowable>)
      ensures r == StreamOutcome(StreamSentences(text), SentenceSynthesis(isModelLoaded && hasSession, infer, negativeSizeMessage))
    {
      var sentences := StreamSentences(text);
      ghost var synth := SentenceSynthesis(isModelLoaded && hasSession, infer, negativeSizeMessage);
      var chunks: seq<seq<byte>> := [];
      StreamStart(sentences, synth);
      for i := 0 to |sentences|
        invariant StreamOutcome(sentences, synth) == Prepend(chunks, StreamOutcome(sentences[i..], synth))
      {
        StreamStep(sentences, i, synth, chunks);
        var chunk := Synthesize(sentences[i], DefaultSpeed, DefaultVoice, infer, negativeSizeMessage);
        if chunk.Failure? {
          return Failure(chunk.error);
        }
        chunks := chunks + [chunk.value];
      }
      StreamEnd(sentences, synth, chunks);
      r := Success(chunks);
    }

    /**
     * Closes the session, if any, and clears it and the flag. A close that
     * throws propagates (threw) and leaves everything as it was; with no
     * session nothing is closed, so a second unload never throws.
     */
    method Unload(closeThrows: bool) returns (threw: bool)
      requires Valid()
      modifies this
      ensures Valid()
      ensures threw == (old(hasSession) && closeThrows)
      ensures threw ==> unchanged(this)
      ensures !threw ==> !isModelLoaded && !hasSession
    {
      if hasSession && closeThrows {
        return true;
      }
      hasSession := false;
      isModelLoaded := false;
      threw := false;
    }

    function IsLoaded(): bool
      reads this
    {
      isModelLoaded
    }

    function GetModelInfo(): (info: Info)
      reads this
      ensures info.loaded == isModelLoaded && info.sampleRate == SampleRate && info.hopLength == HopLength
    {
      Info(isModelLoaded, SampleRate, HopLength)
    }
  }
}

=== FILE: TtsIos.dfy ===
/**
 * The iOS text-to-speech wrapper (KokoroNative.swift): a loaded flag and a
 * model path; synthesis prepares the text and its token ids but answers two
 * seconds of silence, and streaming skips the sentences that fail.
 */
module TtsIos {
  import opened Wrappers
  import opened Numeric
  import opened Text
  import opened Audio
  import opened Errors
  import opened Speech

  const Domain := "KokoroNative"
  const DefaultVoice := "female"
  const DefaultSpeed := 1.0
  /** Two seconds of samples at the sample rate. */
  const SilenceSamples: nat := SampleRate * 2

  /** Trim whitespace and newlines, replace each run of regex \s by one space, lower-case. */
  function PrepareText(text: string): (r: string)
    ensures IsTrimmed(r, SwiftWhitespacesAndNewlines)
    ensures forall i :: 0 <= i < |r| && r[i] in IcuRegexSpace ==> r[i] == ' '
    ensures forall i :: 0 <= i < |r| - 1 ==> !(r[i] in IcuRegexSpace && r[i + 1] in IcuRegexSpace)
    ensures forall i :: 0 <= i < |r| ==> !IsUpper(r[i])
  {
    Prepare(text, SwiftWhitespacesAndNewlines, IcuRegexSpace)
  }

  /** The vocabulary this version ships: empty. */
  function LoadVocabulary(): map<string, int64> {
    map[]
  }

  /** One id per character, appended to an array in a loop. */
  method TextToTokens(text: string, vocab: map<string, int64>) returns (tokens: seq<int64>)
    ensures tokens == TokenIds(text, vocab)
  {
    tokens := [];
    for i := 0 to |text|
      invariant |tokens| == i
      invariant forall j :: 0 <= j < i ==> tokens[j] == TokenIds(text, vocab)[j]
    {
      var token := if [text[i]] in vocab then vocab[[text[i]]] else 0;
      tokens := tokens + [token];
    }
  }

  /** 256 values: 0.5 for "male", 0.0 for any other voice. */
  function SpeakerEmbedding(voice: string): (e: seq<real>)
    ensures |e| == EmbeddingSize
    ensures voice == "male" ==> forall i :: 0 <= i < |e| ==> e[i] == 0.5
    ensures voice != "male" ==> forall i :: 0 <= i < |e| ==> e[i] == 0.0
  {
    if voice == "male" then seq(EmbeddingSize, _ => 0.5) else seq(EmbeddingSize, _ => 0.0)
  }

  /**
   * The placeholder vocoder: numFrames * 256 / speed zero samples, truncated
   * toward zero. The conversion to Int traps on a zero speed (infinity or
   * NaN), and the array traps on a negative count, which a quotient of -1 or
   * less gives; those inputs are excluded. A quotient between -1 and 0
   * truncates to an empty waveform.
   */
  function MelToWaveform(numFrames: nat, speed: real): (audio: seq<real>)
    requires speed != 0.0 && (numFrames * HopLength) as real / speed > -1.0
    ensures forall i :: 0 <= i < |audio| ==> audio[i] == 0.0
    ensures (numFrames * HopLength) as real / speed >= 0.0 ==>
              |audio| as real <= (numFrames * HopLength) as real / speed < |audio| as real + 1.0
    ensures (numFrames * HopLength) as real / speed < 0.0 ==> audio == []
    ensures speed < 0.0 ==> audio == []
    ensures numFrames == 0 ==> audio == []
    ensures speed == 1.0 ==> |audio| == numFrames * HopLength
  {
    var audioLength := TruncateTowardZero((numFrames * HopLength) as real / speed);
    Zeros(audioLength)
  }

  /** Each sample clamped, scaled to 16 bits and stored at its index of a zeroed buffer, little-endian. */
  method FloatArrayToPcm(audioFloats: seq<real>) returns (pcmData: array<byte>)
    ensures pcmData[..] == PcmOf(audioFloats)
  {
    ghost var pcm := PcmOf(audioFloats);
    pcmData := new byte[|audioFloats| * 2](_ => 0);
    for i := 0 to |audioFloats|
      invariant forall k :: 0 <= k < 2 * i ==> pcmData[k] == pcm[k]
    {
      var sample := ToPcm16(audioFloats[i]);
      EncodeAt(Quantized(audioFloats), i);
      pcmData[2 * i] := LowByte(sample);
      pcmData[2 * i + 1] := HighByte(sample);
    }
  }

  /** The outcome of synthesize: an NSError with code 1 when unloaded, otherwise two seconds of silence whatever the text, speed or voice. */
  function Synthesis(loaded: bool): (r: Result<seq<byte>, NSError>)
    ensures !loaded <==> r.Failure?
    ensures r.Failure? ==> r.error == NSError(Domain, 1, ModelNotLoaded)
    ensures r.Success? ==> |r.value| == 64000 && r.value == PcmOf(Zeros(SilenceSamples))
  {
    if !loaded then Failure(NSError(Domain, 1, ModelNotLoaded))
    else
      SilencePcm(SilenceSamples);
      Success(ZeroBytes(2 * SilenceSamples))
  }

  /** The texts streaming synthesises: segments between '.', '!' and '?' that are not blank, trimmed of spaces and tabs, closed with a period. */
  function StreamSentences(text: string): (sentences: seq<string>)
    ensures |sentences| <= |Split(text, Terminators)|
    ensures forall i :: 0 <= i < |sentences| ==> EndsWithPeriod(sentences[i])
  {
    SentenceTexts(Split(text, Terminators), SwiftWhitespacesAndNewlines, SwiftWhitespaces)
  }

  /**
   * The first sentence is the text before the first terminator, trimmed of
   * spaces and tabs and closed with a period, unless it is blank (newlines
   * included); the sentences of the rest follow.
   */
  lemma StreamSentencesStep(w: string, c: char, t: string)
    requires forall j :: 0 <= j < |w| ==> w[j] !in Terminators
    requires c in Terminators
    ensures StreamSentences(w + [c] + t)
            == (if IsBlank(w, SwiftWhitespacesAndNewlines) then [] else [Trim(w, SwiftWhitespaces) + "."])
               + StreamSentences(t)
  {
    SplitAfterWord(w, c, t, Terminators);
    SentenceTextsAppend([w], Split(t, Terminators), SwiftWhitespacesAndNewlines, SwiftWhitespaces);
    SentenceTextsSingle(w, SwiftWhitespacesAndNewlines, SwiftWhitespaces);
  }

  /** Text without a terminator is one sentence, unless it is blank. */
  lemma StreamSentencesLast(w: string)
    requires forall j :: 0 <= j < |w| ==> w[j] !in Terminators
    ensures StreamSentences(w)
            == if IsBlank(w, SwiftWhitespacesAndNewlines) then [] else [Trim(w, SwiftWhitespaces) + "."]
  {
    SplitWithoutSeparator(w, Terminators);
    SentenceTextsSingle(w, SwiftWhitespacesAndNewlines, SwiftWhitespaces);
  }

  /** What getModelInfo reports. */
  datatype Info = Info(loaded: bool, sampleRate: int, hopLength: int)

  class KokoroNative {
    var isModelLoaded: bool
    var modelPath: Option<string>

    constructor ()
      ensures !isModelLoaded && modelPath == None
    {
      isModelLoaded := false;
      modelPath := None;
    }

    /** A missing file answers false and changes nothing; otherwise the path is recorded and the wrapper loaded. */
    method LoadModel(modelPath: string, fileExists: string -> bool) returns (ok: bool)
      modifies this
      ensures ok == fileExists(modelPath)
      ensures !ok ==> unchanged(this)
      ensures ok ==> isModelLoaded && this.modelPath == Some(modelPath)
    {
      if !fileExists(modelPath) {
        return false;
      }
      this.modelPath := Some(modelPath);
      isModelLoaded := true;
      ok := true;
    }

    method Synthesize(text: string, speed: real, voice: string) returns (r: Result<seq<byte>, NSError>)
      ensures r == Synthesis(isModelLoaded)
    {
      if !isModelLoaded {
        return Failure(NSError(Domain, 1, ModelNotLoaded));
      }
      var preparedText := PrepareText(text);
      var tokenIds := TextToTokens(preparedText, LoadVocabulary());
      var speakerEmbedding := SpeakerEmbedding(voice);
      var silence := Zeros(SilenceSamples);
      SilencePcm(SilenceSamples);
      r := Success(ZeroBytes(2 * |silence|));
    }

    /** One chunk per sentence that synthesises, in order; failures are skipped, so an unloaded wrapper streams nothing. */
    method SynthesizeStream(text: string) returns (chunks: seq<seq<byte>>)
      ensures isModelLoaded ==> chunks == seq(|StreamSentences(text)|, _ => Synthesis(true).value)
      ensures !isModelLoaded ==> chunks == []
      ensures |chunks| <= |Split(text, Terminators)|
    {
      var sentences := StreamSentences(text);
      chunks := [];
      for i := 0 to |sentences|
        invariant isModelLoaded ==> chunks == seq(i, _ => Synthesis(true).value)
        invariant !isModelLoaded ==> chunks == []
      {
        var audioData := Synthesize(sentences[i], DefaultSpeed, DefaultVoice);
        if audioData.Success? {
          chunks := chunks + [audioData.value];
        }
      }
    }

    /** Unconditional: the flag and the path are cleared. */
    method Unload()
      modifies this
      ensures !isModelLoaded && modelPath == None
    {
      isModelLoaded := false;
      modelPath := None;
    }

    function IsLoaded(): bool
      reads this
    {
      isModelLoaded
    }

    function GetModelInfo(): (info: Info)
      reads this
      ensures info.loaded == isModelLoaded && info.sampleRate == SampleRate && info.hopLength == HopLength
    {
      Info(isModelLoaded, SampleRate, HopLength)
    }
  }
}

=== FILE: Wrappers.dfy ===
/** Optional values and results, used for nullable references and thrown errors. */
module Wrappers {

  datatype Option<+T> = None | Some(value: T)

  /** A call that either returns a value or throws the error it carries. */
  datatype Result<+T, +E> = Success(value: T) | Failure(error: E)
}
